=== FILE: README.md ===
# subs-check: the per-proxy check and the name-tag rewriter

This project models, in Dafny, the part of subs-check that decides about one proxy and renames it.

- `checkProxy` (check/check.go) is a strictly ordered gate machine:
  - a skip switch;
  - client construction;
  - the Cloudflare and Google reachability gates;
  - an optional minimum-speed gate;
  - feature probes (OpenAI, Gemini, Twitter, combo, IP risk), which only set flags and never reject.
- A proxy that passes gets its name rewritten by `updateProxyName` and is counted once.
- `updateProxyName`:
  - trims the name;
  - strips the tags an earlier run left, with two regular expressions;
  - appends the new tags as `" |" + join(tags, "|")`, and nothing when there are no tags. The speed label comes first, when a speed test is configured. Then come the platform tags in configured order: at most one per configured platform, and only for those whose flag is set (for iprisk, whose risk label is non-empty).
- `CheckCombo` (check/platform/combo.go) runs three platform probes and joins the labels of those that passed.

The network is not modelled. Every probe is an input: a field of an outcomes record (`Checker.Outcomes`, `Combo.ComboOutcomes`). The check then becomes a pure function of the configuration, the outcomes, the proxy and the counter. It returns:

- the result, or nil;
- the new counter;
- the trace of probes consulted, so that "no later probe is consulted" can be stated.

The two regular expressions are explicit scanners, in module `TagPatterns`:

- `\s*\|(?:\s*[\d.]+[KM]B/s)` and `\s*\|(?:GPT|GM|TW|ALL|\d+%)`.
- Matching follows RE2's leftmost-first, non-overlapping `ReplaceAllString`.
- `\s` is `[\t\n\f\r ]`.

`strings.TrimSpace`, `strings.Join`, `strings.Split` and `%d` are in module `Text`. `%.1f` of `speed/1024` is integer tenths, rounded half to even. That is exact, because `speed/1024` is a binary fraction.

Files:

- `wrappers.dfy`: `Option`.
- `text.dfy`: `Text`.
- `patterns.dfy`: `TagPatterns`.
- `model.dfy`: `Model`, the records.
- `naming.dfy`: `Naming`, for updateProxyName.
- `check.dfy`: `Checker`, for checkProxy.
- `combo.dfy`: `Combo`, for CheckCombo.

Idempotence of the rewrite is conditional. It is proved under explicit conditions:

- the trimmed name has no `|`;
- the speed is non-negative;
- a risk label has the form digits then `%`;
- no feature flag is set while media checks are off.

With node renaming on, it holds without conditions. A counterexample family shows that the no-bar condition is needed: `"|GPT " + w` becomes `" " + w + " |GPT"`, then `w + " |GPT"`.

## Model

| member | source | states |
|---|---|---|
| Checker.CheckProxy | check/check.go:46-119 | With the skip switch set, the untouched result (all flags false, no rewrite) is returned, nothing is consulted and the counter is unchanged. Otherwise the result is nil exactly when some gate fails. A nil result leaves the counter unchanged, and its trace ends at the first failing gate, after only passing gates. A non-nil result raises the counter by exactly one. Its trace is every gate followed only by feature probes, and its result is the accepted one. |
| Checker.RunGates | check/check.go:55-78 | The gate chain passes iff client, Cloudflare, Google and (when a speed test URL is set) speed all pass. On failure the probes consulted are a prefix of the gate order that ends at the first failing gate. |
| Checker.Accept | check/check.go:80-118 | After the gates: each feature flag is true iff media checks are on, its platform is listed and its probe says true. Google and Cloudflare stay false. With media checks off, no feature probe is consulted; with them on, each feature probe is consulted iff its platform is listed. The risk label is set only when an IP was located and the risk lookup did not fail. IP and country come from the iprisk lookup unless renaming must look them up. The new name is the relabelled base, which is `NodePrefix + Rename(country)` when renaming. |
| Checker.Features | check/check.go:80-114 | Over the whole platform list, a flag ends up set iff it was set or its platform is listed and its probe is ok. A located IP sets IP and country, and sets the risk label unless the risk probe errs. An empty IP changes neither. Only feature probes are consulted. The OpenAI, Gemini, Twitter and combo probes and the location lookup are each consulted iff their platform is listed (iprisk for the location lookup). The risk probe is consulted iff iprisk is listed and an IP was found. |
| Checker.FeatureStep | check/check.go:82-112 | One switch case. The probe's error is ignored. A flag can only turn on, and only for its own platform with an ok probe. Each probe is consulted iff the entry names its platform; for iprisk the location lookup always runs, and the risk probe only when an IP was found. For iprisk: an empty IP leaves IP, country and risk as they were. A risk error sets IP and country but leaves the risk label. |
| Checker.SpeedAtMinimumPasses | check/check.go:72-78 | A speed equal to MinSpeed passes the speed gate (the comparison is strict), and the speed probe is consulted. |
| Checker.SpeedBelowMinimumFails | check/check.go:72-78 | A speed one below MinSpeed gives nil. When the earlier gates pass, the probes consulted are exactly the client, Cloudflare, Google and speed gates. |
| Checker.FeatureProbesNeverReject | check/check.go:80-118 | Two outcome records that agree on the gate probes give the same nil/non-nil verdict, whatever the feature probes say. |
| Checker.ClientFailureConsultsNothingElse | check/check.go:55-59 | A failed client construction gives nil, consults nothing else and leaves the counter unchanged. |
| Naming.UpdateProxyName | check/check.go:122-187 | Flags, risk label and other descriptor fields are unchanged. With renaming on and no country yet, IP and country come from the location lookup; otherwise they are kept. The name is the relabelled base, with base `NodePrefix + Rename(country)` under renaming and the old name otherwise. |
| Naming.RoundedTenthsIsNearest | check/check.go:145 | The one-decimal MB/s value is within half a tenth of `speed/1024`, and even on an exact tie, as `%.1f` rounds. |
| Naming.SpeedLabelShape | check/check.go:141-147 | The speed label of a non-negative speed is digits and dots followed by `KB/s` or `MB/s` (the form the speed-strip pattern recognises), without bars or blanks. |
| Naming.SpeedLabelValue | check/check.go:141-147 | Below 1024 the label is the decimal speed plus `KB/s`, and its digits read back as the speed. From 1024 up it is whole megabytes, a dot and one tenth digit, and these read back as the rounded tenths. |
| Naming.PlatformTagsAppend | check/check.go:155-178 | Tag order follows the platform list: the tags of a concatenated list are the tags of the first part followed by those of the second. |
| Naming.PlatformTagsMembership | check/check.go:155-178 | Given a risk label that is empty or digits then `%`: GPT, GM, TW and ALL appear among the tags iff their platform is listed and their flag is set, and a non-empty risk label appears iff iprisk is listed. (The risk probe could return any string; a label such as GPT would break the first part.) |
| Naming.NoFlagsNoPlatformTags | check/check.go:155-178 | Without flags or risk label (media checks off) there are no platform tags. |
| Naming.PlatformTagsAreMediaLabels | check/check.go:155-178 | With a digits-and-percent risk label, every platform tag is one the media-strip pattern recognises. |
| Naming.RelabelSplit | check/check.go:180-185 | With no tags the new name is the stripped name alone. With tags, a bar-free stripped name, a risk label that is empty or digits then `%`, and a non-negative speed when a speed test is set, splitting the new name at its bars gives the stripped name followed by one blank, then exactly the new tags in order. |
| Naming.TagsClean | check/check.go:141-178 | Every new tag is non-empty and has neither a bar nor white space, given a non-negative speed and a digits-and-percent risk label. |
| Naming.StripOldTagsRemovesNewTags | check/check.go:139-183 | When there are tags and they are recognisable, the suffix the rewriter appends is removed completely by the two strip patterns, with or without its leading blank. Recognisable means a non-negative speed, a digits-and-percent risk label, and no flags while media checks are off. A negative speed would give a label such as `-5KB/s`, which the speed pattern does not strip. |
| Naming.StripOldTagsKeepsPrefix | check/check.go:140-152 | The strip patterns never change a bar-free prefix that does not end in a blank; they act only on what follows. |
| Naming.RelabelIdempotent | check/check.go:134-185 | Re-running the name computation on its own output gives the same name. This holds when the trimmed name has no bar and the tags are recognisable (non-negative speed, digits-and-percent risk label, no flags with media checks off). |
| Naming.UpdateProxyNameIdempotent | check/check.go:122-187 | updateProxyName applied to its own result with the same configuration and lookups returns that result. This is unconditional under renaming; otherwise the conditions above apply. |
| Naming.RelabelNotIdempotentWithBar | check/check.go:134-183 | For any trimmed bar-free word w, with only the GPT tag configured and set: a name made of a bar, GPT, a blank and w becomes a blank, w and the new tag; a second run turns that into w and the tag, without the leading blank. So the no-bar condition cannot be dropped. |
| Naming.RelabelIdempotentAfterStrip | check/check.go:134-185 | The general form, for names that still carry an earlier run's tags: re-running the name computation on its own output gives the same name. It needs the name left after trimming and stripping to be trimmed and bar-free, and the tags to be recognisable. |
| Naming.NameTags | check/check.go:137-178 | The tag list: the speed label first when a speed test is configured, then the platform tags. Naming.TagsClean states that every tag is non-empty and free of bars and blanks. Naming.RelabelSplit states that the tags come back, in order, from the new name. |
| Naming.Suffix | check/check.go:180-183 | The text appended to the name: nothing without tags, otherwise a blank, a bar and the tags joined by bars. Naming.RelabelSplit and Naming.StripOldTagsRemovesNewTags state what it looks like and that the next run strips it. |
| Naming.RoundedTenths | check/check.go:145 | The tenths that `%.1f` prints for `speed/1024`. Naming.RoundedTenthsIsNearest states that they are the nearest tenth, even on a tie. |
| Text.IntToString | check/check.go:143 | Go's `%d`: digits that read back as a non-negative number, or a minus sign followed by the digits of its magnitude. |
| Checker.SpeedUsed | check/check.go:72-78 | The speed handed to the rewriter: the measured one with a speed test configured, otherwise the zero value of the unassigned variable. Checker.Accept's name clause states how it reaches the rewrite. |
| Combo.PassedLabels | check/platform/combo.go:10-25 | The labels of the probes that passed, in probing order. Combo.PassedLabelsShape states that they contain no bar, are non-empty, are among GPT, GM and TW, and have strictly increasing rank. Combo.CheckCombo states the iff per probe. |
| TagPatterns.MatchAt | check/check.go:140-152 | The match anchored at the start of a string has positive length and does not run past the string, and it starts with optional blanks followed by a bar. Its behaviour on tags is stated by TagPatterns.SpeedTagMatchesRate, TagPatterns.MediaTagMatchesLabel and TagPatterns.MatchAtBar. |
| TagPatterns.ReplaceAll | check/check.go:140-152 | Never lengthens its input. What it keeps and drops is stated by TagPatterns.ReplaceAllUnchanged, TagPatterns.ReplaceAllKeepsPrefix and the SpeedTag and MediaTag lemmas below. |
| Naming.SpeedLabel | check/check.go:141-146 | The speed label ends in `KB/s` below 1024 and in `MB/s` from 1024 up, after at least one character. Its digits are pinned down by Naming.SpeedLabelValue and Naming.SpeedLabelShape. |
| Naming.PlatformTags | check/check.go:155-178 | At most one tag per platform entry. Which tags appear, and in what order, is stated by Naming.PlatformTagsKinds, Naming.PlatformTagsMembership and Naming.PlatformTagsAppend. |
| Naming.PlatformTagsKinds | check/check.go:155-178 | Every platform tag is GPT, GM, TW, ALL or the non-empty risk label. |
| Naming.StripOldTags | check/check.go:139-153 | Stripping never lengthens the name. That a bar-free name is returned unchanged is stated by Naming.StripOldTagsWithoutBar. That the appended tags are removed exactly is stated by Naming.StripOldTagsRemovesNewTags and Naming.StripOldTagsKeepsPrefix. |
| Naming.StripOldTagsWithoutBar | check/check.go:139-153 | A name without a bar passes both strip patterns unchanged. |
| Naming.Relabel | check/check.go:134-185 | The name computation: trim, strip, append the suffix. Its shape is stated by Naming.RelabelSplit, and its conditional idempotence by Naming.RelabelIdempotent and Naming.RelabelNotIdempotentWithBar. |
| Text.Join | check/platform/combo.go:27 | Go's strings.Join. Its inverse is stated by Text.SplitJoin and Text.JoinSplit. |
| TagPatterns.ReplaceAllUnchanged | check/check.go:140 | Replacing all matches leaves a string unchanged iff no position starts a match. Otherwise the string gets strictly shorter. |
| TagPatterns.ReplaceAllWithoutBar | check/check.go:140 | A string without a bar has no match and is returned as is. |
| TagPatterns.ReplaceAllKeepsPrefix | check/check.go:140-152 | A bar-free prefix not ending in `\s` is copied through, and replacement continues on the rest as if it stood alone. |
| TagPatterns.SpeedTagKeepsMediaLabels | check/check.go:140 | The speed pattern leaves a run of platform and risk labels, each preceded by a bar, untouched. |
| TagPatterns.SpeedTagRemovesRateLabel | check/check.go:140 | Blanks, a bar and a rate label are removed by the speed pattern, and the media labels after them are kept. |
| TagPatterns.MediaTagRemovesMediaLabels | check/check.go:152 | Blanks followed by one or more media labels, each preceded by a bar, are removed completely by the media pattern. |
| TagPatterns.MediaTagIsNotAnchoredAtTagEnd | check/check.go:152 | The media pattern is not anchored at the end of a tag: a bar followed by GPTx becomes just x. |
| Text.TrimSpace | check/check.go:135 | The result neither starts nor ends with white space. An already trimmed string is returned unchanged. |
| Text.TrimSpaceEmpty | check/check.go:135 | Trimming gives the empty string iff the string is all white space. |
| Text.TrimLeftDropsSpace | check/check.go:135 | Everything trimming drops at the front is white space. |
| Text.TrimRightDropsSpace | check/check.go:135 | Everything trimming drops at the back is white space. |
| Text.SplitJoin | check/platform/combo.go:27 | Splitting a join at its one-character separator gives back the parts, when no part contains the separator. |
| Text.JoinSplit | check/check.go:182 | Joining the split parts with the separator gives back the string. |
| Combo.CheckCombo | check/platform/combo.go:9-28 | The label is empty iff no probe passed. GPT, GM and TW are among its bar-separated parts iff the OpenAI, Gemini and Twitter probe, respectively, returned true without error. No part is empty, so there is no leading, trailing or doubled bar. Every part is one of GPT, GM and TW, and the parts appear in that order. Whether a label appears depends only on its own probe's outcome, so a failed earlier probe never keeps a later label out: there is no short-circuit. |
| Combo.ComboErrorCountsAsFailure | check/platform/combo.go:13-25 | A probe that errs counts as failed whatever its boolean says, so the error never shows in the label. |
| Combo.ComboAllPassed | check/platform/combo.go:13-27 | When all three probes pass, the label splits into exactly `GPT`, `GM`, `TW`. |

## Left out

- HTTP probes are not performed. The client, Cloudflare, Google, speed, platform, location and risk probes are inputs: one outcome per kind of probe. So a platform listed twice reads the same outcome twice, where the source would probe twice and could get different answers.
- The client's `Close` is not modelled. Neither are the rate-limit bucket passed to the speed test, the speed test's second return value, or logging.
- `SUB_CHECK_SKIP` (an environment variable) and the global configuration are explicit parameters (`skip`, `Config`).
- `proxyutils.Rename` is an uninterpreted function parameter. The location lookup made while renaming is an input (`renameGeo`), separate from the iprisk lookup. It is not recorded in the trace of consulted probes.
- The worker pool, progress reporting and the atomic counters are not modelled. They live outside these files and are concurrent. The availability counter is a number passed in and returned.
- The combo case of checkProxy reads two values from CheckCombo, while check/platform/combo.go returns one string. In the checker the combo outcome is an abstract probe whose boolean alone matters. CheckCombo itself is modelled by its own text.
- The source's result shares the caller's proxy map (check.go:47-49), so writing the name at check.go:131 and check.go:185 renames the caller's descriptor in place. The model is pure: it returns a new descriptor inside the result and leaves its input unchanged.
- The proxy descriptor is a record with a `name` string and the other entries carried along. The source's type assertion on the name, which panics for a non-string name, is not modelled.
- Strings are sequences of Unicode scalar values. Go's handling of invalid UTF-8 is not modelled.
- Naming.SpeedLabelShape: stated only for non-negative speeds. A negative measured speed is not something the speed test produces; its `%d` label starts with `-`, which the speed-strip pattern does not recognise.
- Naming.RoundedTenthsIsNearest: `float64(speed)/1024` is taken as exact. That holds for speeds below 2^53 KB/s; rounding of larger values is not modelled.
- Text.TrimSpace: its contract does not itself say that the kept part is a contiguous piece of the input. That is stated by TrimLeft and TrimRight's own contracts, together with Text.TrimLeftDropsSpace and Text.TrimRightDropsSpace.

=== FILE: check.dfy ===
/**
 checkProxy (check.go:46-119): a fixed sequence of gates, each of which can
 reject the proxy, then the feature probes, which only set flags, then the
 name rewrite and one increment of the availability counter.

 The probes are not performed: their outcomes are an input record, one
 outcome per kind of probe, and the result carries the trace of probes the
 check consulted, so that "no later probe is consulted" can be stated.
 */
module Checker {
  import opened Wrappers
  import opened Model
  import opened Naming

  /** The probes checkProxy can consult, in the order they appear in the source. */
  datatype Call = BuildClient | Cloudflare | Google | SpeedTest | Openai | Gemini | Twitter | ComboProbe | Country | IPRisk

  /** The outcome of every probe; `renameGeo` is the location lookup made while renaming. */
  datatype Outcomes = Outcomes(
    clientBuilt: bool,
    cloudflare: Probe,
    google: Probe,
    speed: SpeedProbe,
    openai: Probe,
    gemini: Probe,
    twitter: Probe,
    combo: Probe,
    geo: Geo,
    risk: RiskProbe,
    renameGeo: Geo)

  /** What one check returns: the result or nil, the availability counter, and the probes consulted. */
  datatype Checked = Checked(result: Option<Result>, available: nat, calls: seq<Call>)

  /** The gates in order; the speed gate exists only when a speed test is configured (check.go:56-79). */
  function Gates(cfg: Config): seq<Call> {
    [BuildClient, Cloudflare, Google] + (if cfg.speedTestUrl != "" then [SpeedTest] else [])
  }

  /** Whether a gate lets the proxy through: a client, a true result without error, a speed of at least MinSpeed. */
  predicate GatePasses(cfg: Config, o: Outcomes, g: Call) {
    match g
    case BuildClient => o.clientBuilt
    case Cloudflare => Passed(o.cloudflare)
    case Google => Passed(o.google)
    case SpeedTest => !o.speed.err && o.speed.speed >= cfg.minSpeed
    case _ => true
  }

  predicate AllGatesPass(cfg: Config, o: Outcomes) {
    forall k :: 0 <= k < |Gates(cfg)| ==> GatePasses(cfg, o, Gates(cfg)[k])
  }

  datatype GateRun = GateRun(passed: bool, calls: seq<Call>)

  /**
   The gate chain of check.go:56-79. It passes exactly when every gate does;
   otherwise it has consulted the gates up to and including the first one that
   fails, and nothing after it.
   */
  function RunGates(cfg: Config, o: Outcomes): (r: GateRun)
    ensures r.passed <==> AllGatesPass(cfg, o)
    ensures r.passed ==> r.calls == Gates(cfg)
    ensures !r.passed ==>
      && 1 <= |r.calls| <= |Gates(cfg)|
      && r.calls == Gates(cfg)[..|r.calls|]
      && !GatePasses(cfg, o, r.calls[|r.calls| - 1])
      && forall k :: 0 <= k < |r.calls| - 1 ==> GatePasses(cfg, o, r.calls[k])
  {
    var gates := Gates(cfg);
    if !o.clientBuilt then
      assert gates[0] == BuildClient;
      GateRun(false, [BuildClient])
    else if o.cloudflare.err || !o.cloudflare.ok then
      assert gates[1] == Cloudflare;
      GateRun(false, [BuildClient, Cloudflare])
    else if o.google.err || !o.google.ok then
      assert gates[2] == Google;
      GateRun(false, [BuildClient, Cloudflare, Google])
    else if cfg.speedTestUrl != "" && (o.speed.err || o.speed.speed < cfg.minSpeed) then
      assert gates[3] == SpeedTest;
      GateRun(false, [BuildClient, Cloudflare, Google, SpeedTest])
    else GateRun(true, gates)
  }

  datatype FeatureRun = FeatureRun(res: Result, calls: seq<Call>)

  /** One case of the platform switch of check.go:83-113; a probe's error is ignored, only its boolean counts. */
  function FeatureStep(plat: string, o: Outcomes, res: Result): (r: FeatureRun)
    ensures r.res.proxy == res.proxy && r.res.google == res.google && r.res.cloudflare == res.cloudflare
    ensures r.res.openai <==> res.openai || (plat == "openai" && o.openai.ok)
    ensures r.res.gemini <==> res.gemini || (plat == "gemini" && o.gemini.ok)
    ensures r.res.twitter <==> res.twitter || (plat == "twitter" && o.twitter.ok)
    ensures r.res.combo <==> res.combo || (plat == "combo" && o.combo.ok)
    ensures plat == "iprisk" && o.geo.ip != "" ==>
      && r.res.ip == o.geo.ip && r.res.country == o.geo.country
      && r.res.ipRisk == (if o.risk.err then res.ipRisk else o.risk.risk)
    ensures !(plat == "iprisk" && o.geo.ip != "") ==> r.res.ip == res.ip && r.res.country == res.country && r.res.ipRisk == res.ipRisk
    ensures forall k :: 0 <= k < |r.calls| ==> IsFeatureCall(r.calls[k])
    ensures Openai in r.calls <==> plat == "openai"
    ensures Gemini in r.calls <==> plat == "gemini"
    ensures Twitter in r.calls <==> plat == "twitter"
    ensures ComboProbe in r.calls <==> plat == "combo"
    ensures Country in r.calls <==> plat == "iprisk"
    ensures IPRisk in r.calls <==> plat == "iprisk" && o.geo.ip != ""
  {
    if plat == "openai" then FeatureRun(if o.openai.ok then res.(openai := true) else res, [Openai])
    else if plat == "gemini" then FeatureRun(if o.gemini.ok then res.(gemini := true) else res, [Gemini])
    else if plat == "twitter" then FeatureRun(if o.twitter.ok then res.(twitter := true) else res, [Twitter])
    else if plat == "combo" then FeatureRun(if o.combo.ok then res.(combo := true) else res, [ComboProbe])
    else if plat == "iprisk" then
      if o.geo.ip == "" then FeatureRun(res, [Country])
      else
        var located := res.(ip := o.geo.ip, country := o.geo.country);
        FeatureRun(if o.risk.err then located else located.(ipRisk := o.risk.risk), [Country, IPRisk])
    else FeatureRun(res, [])
  }

  /** The probes the feature loop may consult. */
  predicate IsFeatureCall(c: Call) {
    c == Openai || c == Gemini || c == Twitter || c == ComboProbe || c == Country || c == IPRisk
  }

  /** Whether the loop locates the egress IP: iprisk is configured and the lookup gives an IP. */
  predicate Locates(platforms: seq<string>, o: Outcomes) {
    "iprisk" in platforms && o.geo.ip != ""
  }

  /**
   The feature loop over `platforms` (check.go:82-115). A flag ends up set
   exactly when it was already set or its platform is listed and its probe
   says true; a located IP sets the IP and country, and the risk label too
   unless the risk probe fails. Nothing can reject the proxy here.
   */
  function Features(platforms: seq<string>, o: Outcomes, res: Result): (r: FeatureRun)
    ensures r.res.proxy == res.proxy && r.res.google == res.google && r.res.cloudflare == res.cloudflare
    ensures r.res.openai <==> res.openai || ("openai" in platforms && o.openai.ok)
    ensures r.res.gemini <==> res.gemini || ("gemini" in platforms && o.gemini.ok)
    ensures r.res.twitter <==> res.twitter || ("twitter" in platforms && o.twitter.ok)
    ensures r.res.combo <==> res.combo || ("combo" in platforms && o.combo.ok)
    ensures Locates(platforms, o) ==>
      && r.res.ip == o.geo.ip && r.res.country == o.geo.country
      && r.res.ipRisk == (if o.risk.err then res.ipRisk else o.risk.risk)
    ensures !Locates(platforms, o) ==> r.res.ip == res.ip && r.res.country == res.country && r.res.ipRisk == res.ipRisk
    ensures forall k :: 0 <= k < |r.calls| ==> IsFeatureCall(r.calls[k])
    ensures Openai in r.calls <==> "openai" in platforms
    ensures Gemini in r.calls <==> "gemini" in platforms
    ensures Twitter in r.calls <==> "twitter" in platforms
    ensures ComboProbe in r.calls <==> "combo" in platforms
    ensures Country in r.calls <==> "iprisk" in platforms
    ensures IPRisk in r.calls <==> Locates(platforms, o)
    decreases |platforms|
  {
    if platforms == [] then FeatureRun(res, [])
    else
      var first := FeatureStep(platforms[0], o, res);
      var rest := Features(platforms[1..], o, first.res);
      assert forall x :: x in platforms <==> x == platforms[0] || x in platforms[1..];
      FeatureRun(rest.res, first.calls + rest.calls)
  }

  /** The speed handed to the rewriter: the measured one when a speed test ran, zero otherwise. */
  function SpeedUsed(cfg: Config, o: Outcomes): int {
    if cfg.speedTestUrl != "" then o.speed.speed else 0
  }

  /**
   What happens to a proxy that passed every gate (check.go:81-118): the
   feature probes when media checks are on, then the name rewrite. Only the
   listed probes that say true set flags; the located IP and risk label are
   kept unless the rename lookup has to fill in a missing country.
   */
  function Accept(cfg: Config, o: Outcomes, proxy: Proxy, rename: string -> string): (r: FeatureRun)
    ensures forall k :: 0 <= k < |r.calls| ==> IsFeatureCall(r.calls[k])
    ensures !cfg.mediaCheck ==> r.calls == []
    ensures cfg.mediaCheck ==>
      && (Openai in r.calls <==> "openai" in cfg.platforms)
      && (Gemini in r.calls <==> "gemini" in cfg.platforms)
      && (Twitter in r.calls <==> "twitter" in cfg.platforms)
      && (ComboProbe in r.calls <==> "combo" in cfg.platforms)
      && (Country in r.calls <==> "iprisk" in cfg.platforms)
      && (IPRisk in r.calls <==> Locates(cfg.platforms, o))
    ensures
      var res := r.res;
      var located := cfg.mediaCheck && Locates(cfg.platforms, o);
      && res.proxy.params == proxy.params
      && !res.google && !res.cloudflare
      && (res.openai <==> cfg.mediaCheck && "openai" in cfg.platforms && o.openai.ok)
      && (res.gemini <==> cfg.mediaCheck && "gemini" in cfg.platforms && o.gemini.ok)
      && (res.twitter <==> cfg.mediaCheck && "twitter" in cfg.platforms && o.twitter.ok)
      && (res.combo <==> cfg.mediaCheck && "combo" in cfg.platforms && o.combo.ok)
      && res.ipRisk == (if located && !o.risk.err then o.risk.risk else "")
      && (located && (o.geo.country != "" || !cfg.renameNode) ==> res.ip == o.geo.ip && res.country == o.geo.country)
      && (!located && !cfg.renameNode ==> res.ip == "" && res.country == "")
      && (cfg.renameNode && (!located || o.geo.country == "") ==>
            res.ip == o.renameGeo.ip && res.country == o.renameGeo.country)
      && res.proxy.name == Relabel(cfg, MarksOf(res),
                                   if cfg.renameNode then cfg.nodePrefix + rename(res.country) else proxy.name,
                                   SpeedUsed(cfg, o))
  {
    var features := if cfg.mediaCheck then Features(cfg.platforms, o, Fresh(proxy)) else FeatureRun(Fresh(proxy), []);
    FeatureRun(UpdateProxyName(cfg, features.res, SpeedUsed(cfg, o), o.renameGeo, rename), features.calls)
  }

  /**
   checkProxy (check.go:46-119). `skip` is the SUB_CHECK_SKIP environment
   variable, `available` the counter before the call and `rename` stands for
   proxyutils.Rename.
   */
  function CheckProxy(cfg: Config, skip: string, o: Outcomes, proxy: Proxy, available: nat, rename: string -> string): (r: Checked)
    // The skip switch returns the untouched result, consults nothing and counts nothing.
    ensures skip != "" ==> r == Checked(Some(Fresh(proxy)), available, [])
    // Otherwise the result is nil exactly when a gate fails, and the trace stops at that gate.
    ensures skip == "" ==> (r.result.None? <==> !AllGatesPass(cfg, o))
    ensures r.result.None? ==> r.calls == RunGates(cfg, o).calls && !RunGates(cfg, o).passed
    ensures r.result.None? ==> !GatePasses(cfg, o, r.calls[|r.calls| - 1]) && r.calls == Gates(cfg)[..|r.calls|]
    // The counter goes up by one exactly for a checked proxy that passed.
    ensures r.available == available + (if skip == "" && r.result.Some? then 1 else 0)
    // A passing proxy has consulted every gate, then only feature probes, and gets the accepted result.
    ensures skip == "" && r.result.Some? ==>
      var accepted := Accept(cfg, o, proxy, rename);
      && r.calls == Gates(cfg) + accepted.calls
      && r.result.value == accepted.res
  {
    if skip != "" then Checked(Some(Fresh(proxy)), available, [])
    else
      var gates := RunGates(cfg, o);
      if !gates.passed then Checked(None, available, gates.calls)
      else
        var accepted := Accept(cfg, o, proxy, rename);
        Checked(Some(accepted.res), available + 1, gates.calls + accepted.calls)
  }

  // ---------------------------------------------------------------------------
  // Properties relating several checks

  /** A measured speed equal to MinSpeed passes the speed gate: the comparison is strict. */
  lemma SpeedAtMinimumPasses(cfg: Config, o: Outcomes, proxy: Proxy, available: nat, rename: string -> string)
    requires cfg.speedTestUrl != ""
    requires o.clientBuilt && Passed(o.cloudflare) && Passed(o.google)
    requires !o.speed.err && o.speed.speed == cfg.minSpeed
    ensures CheckProxy(cfg, "", o, proxy, available, rename).result.Some?
    ensures SpeedTest in CheckProxy(cfg, "", o, proxy, available, rename).calls
  {
    assert Gates(cfg)[3] == SpeedTest;
  }

  /**
   One unit of speed below MinSpeed is rejected; when the earlier gates pass,
   the speed gate is the last probe consulted.
   */
  lemma SpeedBelowMinimumFails(cfg: Config, o: Outcomes, proxy: Proxy, available: nat, rename: string -> string)
    requires cfg.speedTestUrl != ""
    requires !o.speed.err && o.speed.speed == cfg.minSpeed - 1
    ensures CheckProxy(cfg, "", o, proxy, available, rename).result.None?
    ensures o.clientBuilt && Passed(o.cloudflare) && Passed(o.google) ==>
      CheckProxy(cfg, "", o, proxy, available, rename).calls == [BuildClient, Cloudflare, Google, SpeedTest]
  {
    assert Gates(cfg)[3] == SpeedTest;
    assert !GatePasses(cfg, o, Gates(cfg)[3]);
  }

  /** The feature probes never turn a passing proxy into nil: only the gate outcomes decide. */
  lemma FeatureProbesNeverReject(cfg: Config, o1: Outcomes, o2: Outcomes, proxy: Proxy, available: nat, rename: string -> string)
    requires o1.clientBuilt == o2.clientBuilt && o1.cloudflare == o2.cloudflare && o1.google == o2.google && o1.speed == o2.speed
    ensures CheckProxy(cfg, "", o1, proxy, available, rename).result.Some?
        <==> CheckProxy(cfg, "", o2, proxy, available, rename).result.Some?
  {
    assert AllGatesPass(cfg, o1) <==> AllGatesPass(cfg, o2) by {
      assert forall g :: GatePasses(cfg, o1, g) <==> GatePasses(cfg, o2, g);
    }
  }

  /** A rejected proxy leaves the counter unchanged and no probe after the failing gate is consulted. */
  lemma ClientFailureConsultsNothingElse(cfg: Config, o: Outcomes, proxy: Proxy, available: nat, rename: string -> string)
    requires !o.clientBuilt
    ensures CheckProxy(cfg, "", o, proxy, available, rename) == Checked(None, available, [BuildClient])
  {
    assert !GatePasses(cfg, o, Gates(cfg)[0]);
  }
}

=== FILE: combo.dfy ===
/**
 CheckCombo (platform/combo.go:9-28): run the OpenAI, Gemini and Twitter
 probes in that order and join the labels of those that passed with `|`.
 The three probes are always all run; an error only makes its probe count
 as failed and is never returned.
 */
module Combo {
  import opened Text
  import opened Model

  /** The outcomes of the three probes CheckCombo runs. */
  datatype ComboOutcomes = ComboOutcomes(openai: Probe, gemini: Probe, twitter: Probe)

  /** The position of a label in the order CheckCombo probes. */
  function Rank(tag: string): nat {
    if tag == "GPT" then 0 else if tag == "GM" then 1 else 2
  }

  /** The labels of the probes that passed, in probing order. */
  function PassedLabels(o: ComboOutcomes): seq<string> {
    (if Passed(o.openai) then ["GPT"] else [])
    + (if Passed(o.gemini) then ["GM"] else [])
    + (if Passed(o.twitter) then ["TW"] else [])
  }

  lemma PassedLabelsShape(o: ComboOutcomes)
    ensures forall k :: 0 <= k < |PassedLabels(o)| ==> '|' !in PassedLabels(o)[k] && PassedLabels(o)[k] != []
    ensures forall k :: 0 <= k < |PassedLabels(o)| ==> PassedLabels(o)[k] in ["GPT", "GM", "TW"]
    ensures forall i, j :: 0 <= i < j < |PassedLabels(o)| ==> Rank(PassedLabels(o)[i]) < Rank(PassedLabels(o)[j])
  {
  }

  /**
   The combined label. It is empty exactly when no probe passed; otherwise
   splitting it at `|` gives the passed labels, each present exactly when its
   probe returned true without error, in probing order, with no empty part
   (so no leading, trailing or doubled bar) and no part other than the three
   labels.
   */
  function CheckCombo(o: ComboOutcomes): (r: string)
    ensures r == [] <==> !Passed(o.openai) && !Passed(o.gemini) && !Passed(o.twitter)
    ensures "GPT" in Split(r, '|') <==> Passed(o.openai)
    ensures "GM" in Split(r, '|') <==> Passed(o.gemini)
    ensures "TW" in Split(r, '|') <==> Passed(o.twitter)
    ensures r != [] ==> forall k :: 0 <= k < |Split(r, '|')| ==> Split(r, '|')[k] != []
    ensures r != [] ==> forall k :: 0 <= k < |Split(r, '|')| ==> Split(r, '|')[k] in ["GPT", "GM", "TW"]
    ensures r != [] ==> forall i, j :: 0 <= i < j < |Split(r, '|')| ==> Rank(Split(r, '|')[i]) < Rank(Split(r, '|')[j])
  {
    var labels := PassedLabels(o);
    if labels == [] then []
    else
      PassedLabelsShape(o);
      SplitJoin(labels, '|');
      assert Join(labels, "|") != [] by {
        JoinIsHeadThenPrefixed(labels, "|");
      }
      Join(labels, "|")
  }

  /** A probe that fails with an error counts the same as one that reports false. */
  lemma ComboErrorCountsAsFailure(o: ComboOutcomes, ok: bool)
    ensures CheckCombo(o.(openai := Probe(ok, true))) == CheckCombo(o.(openai := Probe(false, false)))
    ensures CheckCombo(o.(gemini := Probe(ok, true))) == CheckCombo(o.(gemini := Probe(false, false)))
    ensures CheckCombo(o.(twitter := Probe(ok, true))) == CheckCombo(o.(twitter := Probe(false, false)))
  {
  }

  /** When every probe passes, the label is the full `GPT|GM|TW`. */
  lemma ComboAllPassed(o: ComboOutcomes)
    requires Passed(o.openai) && Passed(o.gemini) && Passed(o.twitter)
    ensures Split(CheckCombo(o), '|') == ["GPT", "GM", "TW"]
  {
    assert PassedLabels(o) == ["GPT", "GM", "TW"];
    SplitJoin(["GPT", "GM", "TW"], '|');
  }
}

=== FILE: model.dfy ===
/**
 The records check.go works with: the proxy descriptor, the per-proxy check
 result, the configuration the checker reads, and the outcomes of the
 network probes, which the model takes as inputs instead of performing.
 */
module Model {

  /**
   A proxy descriptor. The source keeps the whole descriptor in an open map
   and reads its `name` entry as a string; here the name is a field of its
   own and the rest of the map is carried along untouched.
   */
  datatype Proxy = Proxy(name: string, params: map<string, string>)

  /** The result record of one proxy check (check.go:29-40). */
  datatype Result = Result(
    proxy: Proxy,
    openai: bool,
    google: bool,
    cloudflare: bool,
    gemini: bool,
    twitter: bool,
    combo: bool,
    ip: string,
    ipRisk: string,
    country: string)

  /** The result the check starts from: the proxy, every flag false, every string empty. */
  function Fresh(proxy: Proxy): Result {
    Result(proxy, false, false, false, false, false, false, "", "", "")
  }

  /** The part of the global configuration the checker and the rewriter read. */
  datatype Config = Config(
    speedTestUrl: string,
    minSpeed: int,
    mediaCheck: bool,
    platforms: seq<string>,
    renameNode: bool,
    nodePrefix: string)

  /** The `(bool, error)` pair a platform probe returns; `err` stands for a non-nil error. */
  datatype Probe = Probe(ok: bool, err: bool)

  /** A probe counts as passed when it reports true without an error. */
  predicate Passed(p: Probe) {
    p.ok && !p.err
  }

  /** The speed probe's measured rate in KB/s and whether it failed. */
  datatype SpeedProbe = SpeedProbe(speed: int, err: bool)

  /** What the egress-location lookup returned: a country and an IP, each possibly empty. */
  datatype Geo = Geo(country: string, ip: string)

  /** The risk probe's label and whether it failed. */
  datatype RiskProbe = RiskProbe(risk: string, err: bool)
}

=== FILE: naming.dfy ===
/**
 The name rewriter of check.go (updateProxyName, check.go:122-186): trim the
 name, strip the tags an earlier run left, and append the new ones, speed
 first and then one per platform in the configured order.
 */
module Naming {
  import opened Wrappers
  import opened Text
  import opened TagPatterns
  import opened Model

  function Abs(x: int): nat {
    if x < 0 then -x else x
  }

  /**
   `speed / 1024` in tenths, rounded to nearest with ties to even: what `%.1f`
   prints for the exact binary value `float64(speed) / 1024`.
   */
  function RoundedTenths(speed: nat): nat {
    var q := speed * 10 / 1024;
    var r := speed * 10 % 1024;
    if 2 * r > 1024 || (2 * r == 1024 && q % 2 == 1) then q + 1 else q
  }

  /** The rounded tenths are within half a tenth of the exact value, and even on a tie. */
  lemma RoundedTenthsIsNearest(speed: nat)
    ensures 2 * Abs(RoundedTenths(speed) * 1024 - speed * 10) <= 1024
    ensures 2 * Abs(RoundedTenths(speed) * 1024 - speed * 10) == 1024 ==> RoundedTenths(speed) % 2 == 0
  {
    var q := speed * 10 / 1024;
    var r := speed * 10 % 1024;
    assert q * 1024 + r == speed * 10;
    assert (q + 1) * 1024 == q * 1024 + 1024;
  }

  /** The speed tag: `<n>KB/s` below 1024 KB/s, otherwise megabytes with one decimal (check.go:141-146). */
  function SpeedLabel(speed: int): (r: string)
    ensures |r| > 4 && r[|r| - 4..] == (if speed < 1024 then "KB/s" else "MB/s")
  {
    if speed < 1024 then IntToString(speed) + "KB/s"
    else
      var t := RoundedTenths(speed);
      NatToString(t / 10) + "." + [DigitChar(t % 10)] + "MB/s"
  }

  /** The part of a result the tags are computed from: the four feature flags and the risk label. */
  datatype Marks = Marks(openai: bool, gemini: bool, twitter: bool, combo: bool, ipRisk: string)

  function MarksOf(res: Result): Marks {
    Marks(res.openai, res.gemini, res.twitter, res.combo, res.ipRisk)
  }

  /** The flag a platform's tag depends on. */
  function Flag(plat: string, res: Marks): bool {
    if plat == "openai" then res.openai
    else if plat == "gemini" then res.gemini
    else if plat == "twitter" then res.twitter
    else if plat == "combo" then res.combo
    else res.ipRisk != ""
  }

  /** The tag a platform contributes when its flag is set. */
  function Tag(plat: string, res: Marks): string {
    if plat == "openai" then "GPT"
    else if plat == "gemini" then "GM"
    else if plat == "twitter" then "TW"
    else if plat == "combo" then "ALL"
    else res.ipRisk
  }

  /** The platforms that tag a proxy; each tag names exactly one of them. */
  predicate Tagging(plat: string) {
    plat == "openai" || plat == "gemini" || plat == "twitter" || plat == "combo" || plat == "iprisk"
  }

  /** The tag one entry of `Platforms` contributes, if its flag is set (check.go:156-177). */
  function PlatformLabel(plat: string, res: Marks): seq<string> {
    if Tagging(plat) && Flag(plat, res) then [Tag(plat, res)] else []
  }

  /** The platform tags, in the order of `platforms`. */
  function PlatformTags(platforms: seq<string>, res: Marks): (r: seq<string>)
    ensures |r| <= |platforms|
    decreases |platforms|
  {
    if platforms == [] then []
    else PlatformLabel(platforms[0], res) + PlatformTags(platforms[1..], res)
  }

  /** Every tag of the new name: the speed tag when a speed test is configured, then the platform tags. */
  function NameTags(cfg: Config, res: Marks, speed: int): seq<string> {
    (if cfg.speedTestUrl != "" then [SpeedLabel(speed)] else []) + PlatformTags(cfg.platforms, res)
  }

  /** The two regex replacements of check.go:140 and check.go:152, each only under its switch. */
  function StripOldTags(cfg: Config, name: string): (r: string)
    ensures |r| <= |name|
  {
    var afterSpeed := if cfg.speedTestUrl != "" then ReplaceAll(SpeedTag, name) else name;
    if cfg.mediaCheck then ReplaceAll(MediaTag, afterSpeed) else afterSpeed
  }

  /** The new tags appended to a name: nothing, or ` |` and the tags joined by `|` (check.go:181-183). */
  function Suffix(tags: seq<string>): string {
    if tags == [] then [] else " |" + Join(tags, "|")
  }

  /** The name computation of check.go:134-183 applied to `name`. */
  function Relabel(cfg: Config, res: Marks, name: string, speed: int): string {
    StripOldTags(cfg, TrimSpace(name)) + Suffix(NameTags(cfg, res, speed))
  }

  /** updateProxyName (check.go:122-186); `geo` is what GetProxyCountry returns and `rename` stands for proxyutils.Rename. */
  function UpdateProxyName(cfg: Config, res: Result, speed: int, geo: Geo, rename: string -> string): (r: Result)
    ensures r.proxy.params == res.proxy.params
    ensures r.openai == res.openai && r.gemini == res.gemini && r.twitter == res.twitter && r.combo == res.combo
    ensures r.google == res.google && r.cloudflare == res.cloudflare && r.ipRisk == res.ipRisk
    ensures !cfg.renameNode || res.country != "" ==> r.ip == res.ip && r.country == res.country
    ensures cfg.renameNode && res.country == "" ==> r.ip == geo.ip && r.country == geo.country
    ensures r.proxy.name == Relabel(cfg, MarksOf(res), if cfg.renameNode then cfg.nodePrefix + rename(r.country) else res.proxy.name, speed)
  {
    var located := if cfg.renameNode && res.country == "" then res.(ip := geo.ip, country := geo.country) else res;
    var base := if cfg.renameNode then cfg.nodePrefix + rename(located.country) else res.proxy.name;
    located.(proxy := located.proxy.(name := Relabel(cfg, MarksOf(res), base, speed)))
  }

  // ---------------------------------------------------------------------------
  // Tags

  /** The speed tag is one SpeedTag recognises, and it carries no bar and no white space. */
  lemma SpeedLabelShape(speed: int)
    requires speed >= 0
    ensures IsRateLabel(SpeedLabel(speed))
    ensures NoBar(SpeedLabel(speed)) && Spaceless(SpeedLabel(speed))
  {
    if speed < 1024 {
      var digits := NatToString(speed);
      assert SpeedLabel(speed) == digits + "KB/s";
      RateLabelShape(digits, "KB/s");
    } else {
      var t := RoundedTenths(speed);
      var whole := NatToString(t / 10);
      var number := whole + "." + [DigitChar(t % 10)];
      assert SpeedLabel(speed) == number + "MB/s";
      forall j | 0 <= j < |number| ensures In(DigitOrDot, number[j]) {
        if j < |whole| { assert number[j] == whole[j]; }
      }
      RateLabelShape(number, "MB/s");
    }
  }

  /** Digits and dots followed by a unit form a rate label without bars or white space. */
  lemma RateLabelShape(number: string, unit: string)
    requires number != [] && forall j :: 0 <= j < |number| ==> In(DigitOrDot, number[j])
    requires unit == "KB/s" || unit == "MB/s"
    ensures IsRateLabel(number + unit)
    ensures NoBar(number + unit) && Spaceless(number + unit)
  {
    var l := number + unit;
    RunOfWhole(DigitOrDot, number, unit, 0);
    forall i | 0 <= i < |l| ensures l[i] != '|' && !IsSpace(l[i]) {
      if i < |number| {
        assert l[i] == number[i];
        assert In(DigitOrDot, number[i]);
      } else {
        assert l[i] == unit[i - |number|];
      }
    }
  }

  /** The speed tag reads back as the speed: its digits are the KB/s value, or the rounded MB/s tenths. */
  lemma SpeedLabelValue(speed: int)
    requires speed >= 0
    ensures speed < 1024 ==> SpeedLabel(speed) == NatToString(speed) + "KB/s"
    ensures speed < 1024 ==> DigitsValue(NatToString(speed)) == speed
    ensures speed >= 1024 ==>
      var t := RoundedTenths(speed);
      && SpeedLabel(speed) == NatToString(t / 10) + "." + [DigitChar(t % 10)] + "MB/s"
      && DigitsValue(NatToString(t / 10)) * 10 + DigitValue(DigitChar(t % 10)) == t
  {
  }

  /** No feature flag and no risk label: what a check with MediaCheck off produces. */
  predicate NoFeatureFlags(res: Marks) {
    !res.openai && !res.gemini && !res.twitter && !res.combo && res.ipRisk == ""
  }

  /** The risk label is absent or has the digits-and-percent form its strip pattern expects. */
  predicate RiskLabelOk(res: Marks) {
    res.ipRisk == "" || IsPercentLabel(res.ipRisk)
  }

  /** Each platform entry gives at most one tag, and every tag is a platform token or the risk label. */
  lemma {:induction false} PlatformTagsKinds(platforms: seq<string>, res: Marks)
    ensures forall k :: 0 <= k < |PlatformTags(platforms, res)| ==>
      var t := PlatformTags(platforms, res)[k];
      t == "GPT" || t == "GM" || t == "TW" || t == "ALL" || (t == res.ipRisk && t != [])
    decreases |platforms|
  {
    if platforms != [] {
      PlatformTagsKinds(platforms[1..], res);
    }
  }

  /** Tag order follows `Platforms`: the tags of an earlier entry precede those of a later one. */
  lemma {:induction false} PlatformTagsAppend(p1: seq<string>, p2: seq<string>, res: Marks)
    ensures PlatformTags(p1 + p2, res) == PlatformTags(p1, res) + PlatformTags(p2, res)
    decreases |p1|
  {
    if p1 == [] {
      assert p1 + p2 == p2;
    } else {
      assert (p1 + p2)[1..] == p1[1..] + p2;
      PlatformTagsAppend(p1[1..], p2, res);
    }
  }

  /** A tag appears exactly when its platform is configured and its flag is set. */
  lemma PlatformTagsMembership(platforms: seq<string>, res: Marks)
    requires RiskLabelOk(res)
    ensures "GPT" in PlatformTags(platforms, res) <==> "openai" in platforms && res.openai
    ensures "GM" in PlatformTags(platforms, res) <==> "gemini" in platforms && res.gemini
    ensures "TW" in PlatformTags(platforms, res) <==> "twitter" in platforms && res.twitter
    ensures "ALL" in PlatformTags(platforms, res) <==> "combo" in platforms && res.combo
    ensures res.ipRisk != "" ==> (res.ipRisk in PlatformTags(platforms, res) <==> "iprisk" in platforms)
  {
    FlagTagMembership(platforms, res, "openai", "GPT");
    FlagTagMembership(platforms, res, "gemini", "GM");
    FlagTagMembership(platforms, res, "twitter", "TW");
    FlagTagMembership(platforms, res, "combo", "ALL");
    if res.ipRisk != "" {
      FlagTagMembership(platforms, res, "iprisk", res.ipRisk);
    }
  }

  /** One platform contributes its tag exactly when its flag is set, and no other platform contributes that tag. */
  lemma PlatformLabelMembership(q: string, plat: string, res: Marks)
    requires RiskLabelOk(res)
    requires Tagging(q) && Tag(q, res) != []
    ensures Tag(q, res) in PlatformLabel(plat, res) <==> plat == q && Flag(q, res)
  {
    if res.ipRisk != "" {
      assert res.ipRisk[|res.ipRisk| - 1] == '%';
    }
  }

  lemma {:induction false} FlagTagMembership(platforms: seq<string>, res: Marks, q: string, t: string)
    requires RiskLabelOk(res)
    requires Tagging(q) && t == Tag(q, res) && t != []
    ensures t in PlatformTags(platforms, res) <==> q in platforms && Flag(q, res)
    decreases |platforms|
  {
    if platforms != [] {
      FlagTagMembership(platforms[1..], res, q, t);
      PlatformLabelMembership(q, platforms[0], res);
      assert forall x :: x in platforms <==> x == platforms[0] || x in platforms[1..];
    }
  }

  /** Without feature flags there are no platform tags. */
  lemma {:induction false} NoFlagsNoPlatformTags(platforms: seq<string>, res: Marks)
    requires NoFeatureFlags(res)
    ensures PlatformTags(platforms, res) == []
    decreases |platforms|
  {
    if platforms != [] {
      NoFlagsNoPlatformTags(platforms[1..], res);
    }
  }

  /** With a well-formed risk label every platform tag is one MediaTag recognises. */
  lemma {:induction false} PlatformTagsAreMediaLabels(platforms: seq<string>, res: Marks)
    requires RiskLabelOk(res)
    ensures forall k :: 0 <= k < |PlatformTags(platforms, res)| ==> IsMediaLabel(PlatformTags(platforms, res)[k])
    decreases |platforms|
  {
    if platforms != [] {
      PlatformTagsAreMediaLabels(platforms[1..], res);
    }
  }

  lemma MediaLabelClean(l: string)
    requires IsMediaLabel(l)
    ensures NoBar(l) && Spaceless(l) && l != []
  {
  }

  /** Every new tag is non-empty and has neither a bar nor white space. */
  lemma TagsClean(cfg: Config, res: Marks, speed: int)
    requires cfg.speedTestUrl != "" ==> speed >= 0
    requires RiskLabelOk(res)
    ensures forall k :: 0 <= k < |NameTags(cfg, res, speed)| ==>
      var t := NameTags(cfg, res, speed)[k];
      NoBar(t) && Spaceless(t) && t != []
  {
    var tags := NameTags(cfg, res, speed);
    var ps := PlatformTags(cfg.platforms, res);
    PlatformTagsAreMediaLabels(cfg.platforms, res);
    if cfg.speedTestUrl != "" {
      SpeedLabelShape(speed);
    }
    forall k | 0 <= k < |tags| ensures NoBar(tags[k]) && Spaceless(tags[k]) && tags[k] != [] {
      if cfg.speedTestUrl == "" {
        assert tags[k] == ps[k];
        MediaLabelClean(ps[k]);
      } else if k > 0 {
        assert tags[k] == ps[k - 1];
        MediaLabelClean(ps[k - 1]);
      }
    }
  }

  // ---------------------------------------------------------------------------
  // Shape of the new name

  /**
   When the kept part of the name has no bar, splitting the new name at its
   bars gives back the kept part (with the blank before the first bar) and
   then exactly the new tags, in order.
   */
  lemma RelabelSplit(cfg: Config, res: Marks, name: string, speed: int)
    requires NoBar(StripOldTags(cfg, TrimSpace(name)))
    requires cfg.speedTestUrl != "" ==> speed >= 0
    requires RiskLabelOk(res)
    ensures var kept := StripOldTags(cfg, TrimSpace(name));
            var tags := NameTags(cfg, res, speed);
            && (tags == [] ==> Relabel(cfg, res, name, speed) == kept)
            && (tags != [] ==> Split(Relabel(cfg, res, name, speed), '|') == [kept + " "] + tags)
  {
    var kept := StripOldTags(cfg, TrimSpace(name));
    var tags := NameTags(cfg, res, speed);
    if tags != [] {
      assert forall k :: 0 <= k < |tags| ==> NoBar(tags[k]) by {
        TagsClean(cfg, res, speed);
      }
      SplitOfTagged(kept, tags);
    }
  }

  /** A bar-free base, a blank, a bar and bar-free tags joined by bars split into the base and the tags. */
  lemma SplitOfTagged(kept: string, tags: seq<string>)
    requires NoBar(kept)
    requires tags != []
    requires forall k :: 0 <= k < |tags| ==> NoBar(tags[k])
    ensures Split(kept + Suffix(tags), '|') == [kept + " "] + tags
  {
    assert kept + Suffix(tags) == (kept + " ") + ['|'] + Join(tags, "|");
    SplitJoin(tags, '|');
    assert NoBar(kept + " ");
    SplitAfterHead(kept + " ", '|', Join(tags, "|"));
  }

  // ---------------------------------------------------------------------------
  // Idempotence

  /** What must hold of a result for its tags to be recognised and stripped on the next run. */
  predicate Retaggable(cfg: Config, res: Marks, speed: int) {
    && (cfg.speedTestUrl != "" ==> speed >= 0)
    && RiskLabelOk(res)
    && (!cfg.mediaCheck ==> NoFeatureFlags(res))
  }

  /** Stripping never touches a bar-free prefix that does not end in white space. */
  lemma StripOldTagsKeepsPrefix(cfg: Config, kept: string, x: string)
    requires NoBar(kept) && (kept == [] || !IsRegexSpace(kept[|kept| - 1]))
    ensures StripOldTags(cfg, kept + x) == kept + StripOldTags(cfg, x)
  {
    var y := if cfg.speedTestUrl != "" then ReplaceAll(SpeedTag, x) else x;
    if cfg.speedTestUrl != "" {
      ReplaceAllKeepsPrefix(SpeedTag, kept, x);
    }
    if cfg.mediaCheck {
      ReplaceAllKeepsPrefix(MediaTag, kept, y);
    }
  }

  /** Blanks, a bar and the joined new tags are stripped completely. */
  lemma StripOldTagsRemovesSuffix(cfg: Config, res: Marks, speed: int, w: string)
    requires Retaggable(cfg, res, speed)
    requires AllRegexSpace(w)
    requires NameTags(cfg, res, speed) != []
    ensures StripOldTags(cfg, w + "|" + Join(NameTags(cfg, res, speed), "|")) == []
  {
    var tags := NameTags(cfg, res, speed);
    var ps := PlatformTags(cfg.platforms, res);
    PlatformTagsAreMediaLabels(cfg.platforms, res);
    if !cfg.mediaCheck {
      NoFlagsNoPlatformTags(cfg.platforms, res);
    }
    JoinIsHeadThenPrefixed(tags, "|");
    if cfg.speedTestUrl != "" {
      var l := SpeedLabel(speed);
      assert tags[0] == l && tags[1..] == ps;
      AppendAssoc(w + "|", l, Prefixed(ps, "|"));
      StripRateThenMediaLabels(cfg, w, l, ps, speed);
    } else {
      assert tags == ps;
      StripMediaLabels(cfg, w, ps);
    }
  }

  /** Without a speed test, the tags are media labels and MediaTag removes them all. */
  lemma StripMediaLabels(cfg: Config, w: string, ps: seq<string>)
    requires cfg.speedTestUrl == "" && cfg.mediaCheck
    requires AllRegexSpace(w)
    requires ps != [] && forall k :: 0 <= k < |ps| ==> IsMediaLabel(ps[k])
    ensures StripOldTags(cfg, w + "|" + Join(ps, "|")) == []
  {
    PrefixedJoin(w, ps, "|");
    MediaTagRemovesMediaLabels(w, ps);
  }

  /** With a speed test configured, the speed tag goes first, then every media label. */
  lemma StripRateThenMediaLabels(cfg: Config, w: string, l: string, ps: seq<string>, speed: int)
    requires cfg.speedTestUrl != "" && speed >= 0 && l == SpeedLabel(speed)
    requires AllRegexSpace(w)
    requires forall k :: 0 <= k < |ps| ==> IsMediaLabel(ps[k])
    requires !cfg.mediaCheck ==> ps == []
    ensures StripOldTags(cfg, w + "|" + l + Prefixed(ps, "|")) == []
  {
    SpeedLabelShape(speed);
    SpeedTagRemovesRateLabel(w, l, ps);
    if cfg.mediaCheck {
      MediaTagClearsMediaLabels(ps);
    } else {
      assert Prefixed(ps, "|") == [];
    }
  }

  /** The joined new tags are non-empty and hold no white space. */
  lemma JoinedTagsSpaceless(cfg: Config, res: Marks, speed: int)
    requires Retaggable(cfg, res, speed)
    requires NameTags(cfg, res, speed) != []
    ensures Join(NameTags(cfg, res, speed), "|") != []
    ensures Spaceless(Join(NameTags(cfg, res, speed), "|"))
  {
    var tags := NameTags(cfg, res, speed);
    TagsClean(cfg, res, speed);
    JoinSpaceless(tags, "|");
    JoinIsHeadThenPrefixed(tags, "|");
  }

  /**
   Rewriting an already rewritten name with the same configuration and result
   gives the same name, provided the trimmed original has no bar and the tags
   are ones the strip patterns recognise.
   */
  lemma RelabelIdempotent(cfg: Config, res: Marks, name: string, speed: int)
    requires NoBar(TrimSpace(name))
    requires Retaggable(cfg, res, speed)
    ensures Relabel(cfg, res, Relabel(cfg, res, name, speed), speed) == Relabel(cfg, res, name, speed)
  {
    var kept := TrimSpace(name);
    StripOldTagsWithoutBar(cfg, kept);
    assert Relabel(cfg, res, name, speed) == kept + Suffix(NameTags(cfg, res, speed));
    RelabelOfTagged(cfg, res, speed, kept);
  }

  /**
   The general form: a name that still carries an earlier run's tags is a
   fixed point after one rewrite, provided what is left after stripping is
   trimmed, has no bar, and the new tags are recognisable.
   */
  lemma RelabelIdempotentAfterStrip(cfg: Config, res: Marks, name: string, speed: int)
    requires NoBar(StripOldTags(cfg, TrimSpace(name))) && Trimmed(StripOldTags(cfg, TrimSpace(name)))
    requires Retaggable(cfg, res, speed)
    ensures Relabel(cfg, res, Relabel(cfg, res, name, speed), speed) == Relabel(cfg, res, name, speed)
  {
    RelabelOfTagged(cfg, res, speed, StripOldTags(cfg, TrimSpace(name)));
  }

  /** A name without bars passes the strip untouched. */
  lemma StripOldTagsWithoutBar(cfg: Config, name: string)
    requires NoBar(name)
    ensures StripOldTags(cfg, name) == name
  {
    ReplaceAllWithoutBar(SpeedTag, name);
    ReplaceAllWithoutBar(MediaTag, name);
  }

  /** A trimmed bar-free base followed by its own new tags is rewritten to itself. */
  lemma RelabelOfTagged(cfg: Config, res: Marks, speed: int, kept: string)
    requires NoBar(kept) && Trimmed(kept)
    requires Retaggable(cfg, res, speed)
    ensures Relabel(cfg, res, kept + Suffix(NameTags(cfg, res, speed)), speed) == kept + Suffix(NameTags(cfg, res, speed))
  {
    var tags := NameTags(cfg, res, speed);
    var x := Suffix(tags);
    assert StripOldTags(cfg, TrimSpace(kept + x)) == kept by {
      if tags == [] {
        assert kept + x == kept;
        StripUntagged(cfg, kept);
      } else {
        JoinedTagsSpaceless(cfg, res, speed);
        StripOldTagsRemovesNewTags(cfg, res, speed);
        if kept == [] {
          assert kept + x == x;
          StripBareTags(cfg, x, Join(tags, "|"));
        } else {
          var joined := Join(tags, "|");
          assert x[|x| - 1] == joined[|joined| - 1];
          StripTaggedBase(cfg, kept, x);
        }
      }
    }
  }

  /** A trimmed bar-free name without tags is kept as it is. */
  lemma StripUntagged(cfg: Config, kept: string)
    requires NoBar(kept) && Trimmed(kept)
    ensures StripOldTags(cfg, TrimSpace(kept)) == kept
  {
    StripOldTagsWithoutBar(cfg, kept);
  }

  /** Tags alone, after trimming, are stripped to nothing. */
  lemma StripBareTags(cfg: Config, x: string, joined: string)
    requires joined != [] && Spaceless(joined)
    requires x == " |" + joined
    requires StripOldTags(cfg, "|" + joined) == []
    ensures StripOldTags(cfg, TrimSpace(x)) == []
  {
    TrimSpaceOfBareTags(joined);
  }

  /** A trimmed bar-free base followed by strippable tags is stripped back to the base. */
  lemma StripTaggedBase(cfg: Config, kept: string, x: string)
    requires NoBar(kept) && Trimmed(kept) && kept != []
    requires x != [] && !IsSpace(x[|x| - 1])
    requires StripOldTags(cfg, x) == []
    ensures StripOldTags(cfg, TrimSpace(kept + x)) == kept
  {
    TrimSpaceOfTagged(kept, x);
    StripOldTagsKeepsTrimmedPrefix(cfg, kept, x);
    assert kept + [] == kept;
  }

  /** A trimmed bar-free prefix passes the strip untouched, whatever follows it. */
  lemma StripOldTagsKeepsTrimmedPrefix(cfg: Config, kept: string, x: string)
    requires NoBar(kept) && Trimmed(kept)
    ensures StripOldTags(cfg, kept + x) == kept + StripOldTags(cfg, x)
  {
    assert kept == [] || !IsRegexSpace(kept[|kept| - 1]);
    StripOldTagsKeepsPrefix(cfg, kept, x);
  }

  /** The new tags, with or without the blank before their bar, are stripped completely. */
  lemma StripOldTagsRemovesNewTags(cfg: Config, res: Marks, speed: int)
    requires Retaggable(cfg, res, speed)
    requires NameTags(cfg, res, speed) != []
    ensures StripOldTags(cfg, Suffix(NameTags(cfg, res, speed))) == []
    ensures StripOldTags(cfg, "|" + Join(NameTags(cfg, res, speed), "|")) == []
  {
    var joined := Join(NameTags(cfg, res, speed), "|");
    assert StripOldTags(cfg, Suffix(NameTags(cfg, res, speed))) == [] by {
      assert Suffix(NameTags(cfg, res, speed)) == " " + "|" + joined;
      assert AllRegexSpace(" ");
      StripOldTagsRemovesSuffix(cfg, res, speed, " ");
    }
    assert "|" + joined == [] + "|" + joined;
    StripOldTagsRemovesSuffix(cfg, res, speed, []);
  }

  /** A non-empty trimmed base followed by text ending in a non-blank is already trimmed. */
  lemma TrimSpaceOfTagged(kept: string, x: string)
    requires Trimmed(kept) && kept != []
    requires x != [] && !IsSpace(x[|x| - 1])
    ensures TrimSpace(kept + x) == kept + x
  {
    var once := kept + x;
    assert once[0] == kept[0];
    assert once[|once| - 1] == x[|x| - 1];
    assert Trimmed(once);
  }

  /** With an empty base, trimming drops the blank before the bar. */
  lemma TrimSpaceOfBareTags(joined: string)
    requires joined != [] && Spaceless(joined)
    ensures TrimSpace(" |" + joined) == "|" + joined
  {
    assert " |" + joined == [' '] + ("|" + joined);
    TrimSpaceLeadingBlank("|" + joined);
    var t := "|" + joined;
    assert t[|t| - 1] == joined[|joined| - 1];
    assert Trimmed(t);
  }

  /**
   Running updateProxyName on its own output with the same configuration,
   result and lookups changes nothing. With RenameNode on the name is rebuilt
   from the country every time, so this needs no condition; otherwise the
   conditions of RelabelIdempotent apply.
   */
  lemma UpdateProxyNameIdempotent(cfg: Config, res: Result, speed: int, geo: Geo, rename: string -> string)
    requires cfg.renameNode || (NoBar(TrimSpace(res.proxy.name)) && Retaggable(cfg, MarksOf(res), speed))
    ensures var once := UpdateProxyName(cfg, res, speed, geo, rename);
            UpdateProxyName(cfg, once, speed, geo, rename) == once
  {
    var once := UpdateProxyName(cfg, res, speed, geo, rename);
    var twice := UpdateProxyName(cfg, once, speed, geo, rename);
    assert MarksOf(once) == MarksOf(res);
    if !cfg.renameNode {
      RelabelIdempotent(cfg, MarksOf(res), res.proxy.name, speed);
    }
  }

  /**
   Without the no-bar condition the rewrite is not idempotent. With only the
   GPT tag configured and set, a name `|GPT w` (for a trimmed word `w` without
   bars, such as `foo`) becomes ` w |GPT`: its tag is stripped but the blank
   after it stays. The next run trims that blank away and gives `w |GPT`.
   */
  lemma RelabelNotIdempotentWithBar(cfg: Config, res: Marks, w: string)
    requires cfg.speedTestUrl == "" && cfg.mediaCheck && cfg.platforms == ["openai"]
    requires res.openai
    requires w != [] && NoBar(w) && Trimmed(w)
    ensures Relabel(cfg, res, "|GPT " + w, 0) == " " + w + " |GPT"
    ensures Relabel(cfg, res, " " + w + " |GPT", 0) == w + " |GPT"
  {
    assert Suffix(NameTags(cfg, res, 0)) == " |GPT" by {
      assert PlatformTags(["openai"], res) == ["GPT"];
    }
    CounterexampleFirstRun(cfg, w);
    CounterexampleSecondRun(cfg, w);
  }

  /** The first run strips `|GPT` and keeps the blank behind it. */
  lemma CounterexampleFirstRun(cfg: Config, w: string)
    requires cfg.speedTestUrl == "" && cfg.mediaCheck
    requires w != [] && NoBar(w) && Trimmed(w)
    ensures StripOldTags(cfg, TrimSpace("|GPT " + w)) == " " + w
  {
    TrimSpaceAfterGptTag(w);
    GptTagThenWord(w);
  }

  lemma TrimSpaceAfterGptTag(w: string)
    requires w != [] && Trimmed(w)
    ensures TrimSpace("|GPT " + w) == "|GPT" + (" " + w)
  {
    var name := "|GPT " + w;
    assert name[0] == '|' && name[|name| - 1] == w[|w| - 1];
    assert Trimmed(name);
    assert name == "|GPT" + (" " + w);
  }

  lemma GptTagThenWord(w: string)
    requires NoBar(w)
    ensures ReplaceAll(MediaTag, "|GPT" + (" " + w)) == " " + w
  {
    GptTagDropped(" " + w);
    BlankThenNoBar(w);
    ReplaceAllWithoutBar(MediaTag, " " + w);
  }

  lemma BlankThenNoBar(w: string)
    requires NoBar(w)
    ensures NoBar(" " + w)
  {
    assert forall i :: 1 <= i < |w| + 1 ==> (" " + w)[i] == w[i - 1];
  }

  /** The second run trims the leading blank and strips the new tag again. */
  lemma CounterexampleSecondRun(cfg: Config, w: string)
    requires cfg.speedTestUrl == "" && cfg.mediaCheck
    requires w != [] && NoBar(w) && Trimmed(w)
    ensures StripOldTags(cfg, TrimSpace(" " + w + " |GPT")) == w
  {
    TrimSpaceBeforeWord(w);
    WordThenGptTag(w);
  }

  lemma TrimSpaceBeforeWord(w: string)
    requires w != [] && Trimmed(w)
    ensures TrimSpace(" " + w + " |GPT") == w + " |GPT"
  {
    var twice := w + " |GPT";
    assert " " + w + " |GPT" == [' '] + twice;
    TrimSpaceLeadingBlank(twice);
    assert twice[0] == w[0] && twice[|twice| - 1] == 'T';
    assert Trimmed(twice);
  }

  lemma WordThenGptTag(w: string)
    requires w != [] && NoBar(w) && Trimmed(w)
    ensures ReplaceAll(MediaTag, w + " |GPT") == w
  {
    assert !IsRegexSpace(w[|w| - 1]);
    ReplaceAllKeepsPrefix(MediaTag, w, " |GPT");
    StrayTagStripped();
    assert w + [] == w;
  }

  /** A leading `|GPT` is one match of the media pattern, whatever follows it. */
  lemma GptTagDropped(rest: string)
    ensures ReplaceAll(MediaTag, "|GPT" + rest) == ReplaceAll(MediaTag, rest)
  {
    var s := "|GPT" + rest;
    assert s == [] + "|" + ("GPT" + rest);
    MatchAtBar(MediaTag, [], "GPT" + rest);
    assert TagLength(MediaTag, "GPT" + rest, 0) == 3;
    ReplaceAllDropsMatch(MediaTag, s, 4);
    assert s[4..] == rest;
  }

  /** The tag the first run appended is stripped by the second. */
  lemma StrayTagStripped()
    ensures ReplaceAll(MediaTag, " |GPT") == []
  {
    MediaTagMatchesLabel(" ", "GPT", []);
    assert " " + "|" + "GPT" + [] == " |GPT";
    ReplaceAllDropsMatch(MediaTag, " |GPT", 5);
  }
}

=== FILE: patterns.dfy ===
/**
 The two tag-stripping regular expressions of check.go, written as scanners.

   SpeedTag  `\s*\|(?:\s*[\d.]+[KM]B/s)`      (check.go:140)
   MediaTag  `\s*\|(?:GPT|GM|TW|ALL|\d+%)`    (check.go:152)

 Every repetition in both patterns is followed by a character class disjoint
 from its own, so a greedy run is the only way to continue and a match
 anchored at a position is unique: `MatchAt` computes it directly. The
 alternatives of MediaTag are tried in the written order and at most one can
 apply. `ReplaceAll` is Go's `ReplaceAllString(s, "")`: the leftmost match is
 dropped and scanning resumes right after it, so matches never overlap.
 Neither pattern matches the empty string.
 */
module TagPatterns {
  import opened Wrappers
  import opened Text

  datatype Pattern = SpeedTag | MediaTag

  datatype CharClass = RegexSpace | Digit | DigitOrDot

  predicate In(k: CharClass, c: char) {
    match k
    case RegexSpace => IsRegexSpace(c)
    case Digit => IsDigit(c)
    case DigitOrDot => IsDigit(c) || c == '.'
  }

  /** The length of the longest run of `k` characters in `s` starting at index `i`. */
  function RunFrom(k: CharClass, s: string, i: nat): (n: nat)
    requires i <= |s|
    ensures i + n <= |s|
    ensures i + n < |s| ==> !In(k, s[i + n])
    decreases |s| - i
  {
    if i < |s| && In(k, s[i]) then 1 + RunFrom(k, s, i + 1) else 0
  }

  /** Every character inside a run is of the run's class. */
  lemma {:induction false} RunCovers(k: CharClass, s: string, i: nat, j: nat)
    requires i <= |s| && i <= j < i + RunFrom(k, s, i)
    ensures In(k, s[j])
    decreases j - i
  {
    if j > i {
      RunCovers(k, s, i + 1, j);
    }
  }

  /** A run that stops inside `s` is not extended by what follows `s`. */
  lemma {:induction false} RunOfExtension(k: CharClass, s: string, x: string, i: nat)
    requires i <= |s| && i + RunFrom(k, s, i) < |s|
    ensures RunFrom(k, s + x, i) == RunFrom(k, s, i)
    decreases |s| - i
  {
    assert (s + x)[i] == s[i];
    if In(k, s[i]) {
      RunOfExtension(k, s, x, i + 1);
    }
  }

  /** A tail of `s` entirely of class `k`, followed by a character outside `k`, is exactly the run. */
  lemma {:induction false} RunOfWhole(k: CharClass, s: string, x: string, i: nat)
    requires i <= |s|
    requires forall j :: i <= j < |s| ==> In(k, s[j])
    requires x == [] || !In(k, x[0])
    ensures RunFrom(k, s + x, i) == |s| - i
    decreases |s| - i
  {
    if i < |s| {
      assert (s + x)[i] == s[i];
      RunOfWhole(k, s, x, i + 1);
    } else if x != [] {
      assert (s + x)[i] == x[0];
    }
  }

  /** Runs are read the same way after any prefix. */
  lemma {:induction false} RunAfterPrefix(k: CharClass, pre: string, t: string, i: nat)
    requires i <= |t|
    ensures RunFrom(k, pre + t, |pre| + i) == RunFrom(k, t, i)
    decreases |t| - i
  {
    if i < |t| {
      assert (pre + t)[|pre| + i] == t[i];
      RunAfterPrefix(k, pre, t, i + 1);
    }
  }

  /** The length of `\s*[\d.]+[KM]B/s` matched at index `i` of `s`, or 0. */
  function RateLength(s: string, i: nat): (n: nat)
    requires i <= |s|
    ensures i + n <= |s|
  {
    var b := RunFrom(RegexSpace, s, i);
    var d := RunFrom(DigitOrDot, s, i + b);
    if d > 0 && UnitAt(s, i + b + d) then b + d + 4 else 0
  }

  /** `[KM]B/s` at index `c` of `s`. */
  predicate UnitAt(s: string, c: nat) {
    c + 4 <= |s| && (s[c] == 'K' || s[c] == 'M') && s[c + 1] == 'B' && s[c + 2] == '/' && s[c + 3] == 's'
  }

  /** The length of `GPT|GM|TW|ALL|\d+%` matched at index `i` of `s`, alternatives in the written order, or 0. */
  function MediaLength(s: string, i: nat): (n: nat)
    requires i <= |s|
    ensures i + n <= |s|
  {
    if i + 3 <= |s| && s[i] == 'G' && s[i + 1] == 'P' && s[i + 2] == 'T' then 3
    else if i + 2 <= |s| && s[i] == 'G' && s[i + 1] == 'M' then 2
    else if i + 2 <= |s| && s[i] == 'T' && s[i + 1] == 'W' then 2
    else if i + 3 <= |s| && s[i] == 'A' && s[i + 1] == 'L' && s[i + 2] == 'L' then 3
    else
      var d := RunFrom(Digit, s, i);
      if d > 0 && i + d < |s| && s[i + d] == '%' then d + 1 else 0
  }

  /** The length of the part of `p` after its bar, matched at index `i` of `s`, or 0. */
  function TagLength(p: Pattern, s: string, i: nat): (n: nat)
    requires i <= |s|
    ensures i + n <= |s|
  {
    match p
    case SpeedTag => RateLength(s, i)
    case MediaTag => MediaLength(s, i)
  }

  /** The tag part is read the same way after any prefix. */
  lemma TagLengthAfterPrefix(p: Pattern, pre: string, t: string, i: nat)
    requires i <= |t|
    ensures TagLength(p, pre + t, |pre| + i) == TagLength(p, t, i)
  {
    match p
    case SpeedTag => RateLengthAfterPrefix(pre, t, i);
    case MediaTag => MediaLengthAfterPrefix(pre, t, i);
  }

  lemma RateLengthAfterPrefix(pre: string, t: string, i: nat)
    requires i <= |t|
    ensures RateLength(pre + t, |pre| + i) == RateLength(t, i)
  {
    var s := pre + t;
    var b := RunFrom(RegexSpace, t, i);
    var d := RunFrom(DigitOrDot, t, i + b);
    assert RunFrom(RegexSpace, s, |pre| + i) == b by {
      RunAfterPrefix(RegexSpace, pre, t, i);
    }
    assert RunFrom(DigitOrDot, s, |pre| + i + b) == d by {
      RunAfterPrefix(DigitOrDot, pre, t, i + b);
    }
    assert UnitAt(s, |pre| + i + b + d) == UnitAt(t, i + b + d) by {
      var c := i + b + d;
      if c + 4 <= |t| {
        assert s[|pre| + c] == t[c] && s[|pre| + c + 1] == t[c + 1];
        assert s[|pre| + c + 2] == t[c + 2] && s[|pre| + c + 3] == t[c + 3];
      }
    }
  }

  lemma MediaLengthAfterPrefix(pre: string, t: string, i: nat)
    requires i <= |t|
    ensures MediaLength(pre + t, |pre| + i) == MediaLength(t, i)
  {
    var s := pre + t;
    forall j | i <= j < |t| && j < i + 3 ensures s[|pre| + j] == t[j] { }
    RunAfterPrefix(Digit, pre, t, i);
    var d := RunFrom(Digit, t, i);
    if i + d < |t| {
      assert s[|pre| + i + d] == t[i + d];
    }
  }

  /** The length of the match of `p` anchored at the start of `s`, if there is one. */
  function MatchAt(p: Pattern, s: string): (m: Option<nat>)
    ensures m.Some? ==> 0 < m.value <= |s|
    ensures m.Some? ==> RunFrom(RegexSpace, s, 0) < |s| && s[RunFrom(RegexSpace, s, 0)] == '|'
  {
    var a := RunFrom(RegexSpace, s, 0);
    if a == |s| || s[a] != '|' then None
    else
      var n := TagLength(p, s, a + 1);
      if n > 0 then Some(a + 1 + n) else None
  }

  /** Blanks that end at something other than a bar start no match. */
  lemma MatchAtNoBar(p: Pattern, s: string)
    requires RunFrom(RegexSpace, s, 0) < |s| && s[RunFrom(RegexSpace, s, 0)] != '|'
    ensures MatchAt(p, s).None?
  {
  }

  /** `s` has no bar, so no match can start or end in it. */
  predicate NoBar(s: string) {
    '|' !in s
  }

  predicate AllRegexSpace(w: string) {
    forall i :: 0 <= i < |w| ==> IsRegexSpace(w[i])
  }

  /** Blanks and a bar hand the rest of the match to the tag part of the pattern. */
  lemma MatchAtBar(p: Pattern, w: string, t: string)
    requires AllRegexSpace(w)
    ensures MatchAt(p, w + "|" + t) == if TagLength(p, t, 0) > 0 then Some(|w| + 1 + TagLength(p, t, 0)) else None
  {
    var s := w + "|" + t;
    assert s == w + ("|" + t);
    RunOfWhole(RegexSpace, w, "|" + t, 0);
    assert s[|w|] == '|';
    assert s == (w + "|") + t;
    TagLengthAfterPrefix(p, w + "|", t, 0);
  }

  /** No position of `s` starts a match of `p`. */
  predicate NoMatch(p: Pattern, s: string) {
    forall i :: 0 <= i < |s| ==> MatchAt(p, s[i..]).None?
  }

  /** Go's ReplaceAllString(s, "") for the pattern `p`. */
  function ReplaceAll(p: Pattern, s: string): (r: string)
    ensures |r| <= |s|
    decreases |s|, 1
  {
    if s == [] then [] else Advance(p, s, MatchAt(p, s))
  }

  /** One step of the scan, given the match `m` found at the start of `s`: drop it, or keep one character. */
  function Advance(p: Pattern, s: string, m: Option<nat>): (r: string)
    requires s != [] && (m.Some? ==> 0 < m.value <= |s|)
    ensures |r| <= |s|
    decreases |s|, 0
  {
    match m
    case Some(n) => ReplaceAll(p, s[n..])
    case None => [s[0]] + ReplaceAll(p, s[1..])
  }

  /** A character where no match starts is copied to the output. */
  lemma ReplaceAllKeepsUnmatched(p: Pattern, s: string)
    requires s != [] && MatchAt(p, s).None?
    ensures ReplaceAll(p, s) == [s[0]] + ReplaceAll(p, s[1..])
  {
  }

  /** A match is dropped and scanning resumes after it. */
  lemma ReplaceAllDropsMatch(p: Pattern, s: string, n: nat)
    requires MatchAt(p, s) == Some(n)
    ensures ReplaceAll(p, s) == ReplaceAll(p, s[n..])
  {
  }

  /** A prefix that is exactly one match is dropped whole. */
  lemma ReplaceAllDropsPrefix(p: Pattern, head: string, rest: string)
    requires MatchAt(p, head + rest) == Some(|head|)
    ensures ReplaceAll(p, head + rest) == ReplaceAll(p, rest)
  {
    ReplaceAllDropsMatch(p, head + rest, |head|);
    assert (head + rest)[|head|..] == rest;
  }

  /** A string without bars holds no match. */
  lemma {:induction false} ReplaceAllWithoutBar(p: Pattern, s: string)
    requires NoBar(s)
    ensures ReplaceAll(p, s) == s
    decreases |s|
  {
    if s != [] {
      assert MatchAt(p, s).None?;
      ReplaceAllWithoutBar(p, s[1..]);
      assert [s[0]] + s[1..] == s;
    }
  }

  /** ReplaceAll changes `s` exactly when some position of `s` starts a match. */
  lemma {:induction false} ReplaceAllUnchanged(p: Pattern, s: string)
    ensures ReplaceAll(p, s) == s <==> NoMatch(p, s)
    ensures !NoMatch(p, s) ==> |ReplaceAll(p, s)| < |s|
    decreases |s|
  {
    if s != [] {
      assert s[0..] == s;
      ReplaceAllUnchanged(p, s[1..]);
      match MatchAt(p, s)
      case Some(n) =>
      case None =>
        assert NoMatch(p, s) <==> NoMatch(p, s[1..]) by {
          forall i | 1 <= i < |s| ensures s[i..] == s[1..][i - 1..] { }
        }
        ReplaceAllKeepsUnmatched(p, s);
        HeadThenOther(s, ReplaceAll(p, s[1..]));
    }
  }

  /** A prefix without bars whose last character is not `\s` never takes part in a match. */
  lemma {:induction false} ReplaceAllKeepsPrefix(p: Pattern, s: string, u: string)
    requires NoBar(s)
    requires s == [] || !IsRegexSpace(s[|s| - 1])
    ensures ReplaceAll(p, s + u) == s + ReplaceAll(p, u)
    decreases |s|
  {
    if s == [] {
      assert s + u == u;
    } else {
      ReplaceAllPlainHead(p, s, u);
      assert NoBar(s[1..]);
      ReplaceAllKeepsPrefix(p, s[1..], u);
      HeadThenTail(s, ReplaceAll(p, u));
    }
  }

  /** The first character of such a prefix is copied and scanning moves on. */
  lemma ReplaceAllPlainHead(p: Pattern, s: string, u: string)
    requires s != [] && NoBar(s) && !IsRegexSpace(s[|s| - 1])
    ensures ReplaceAll(p, s + u) == [s[0]] + ReplaceAll(p, s[1..] + u)
  {
    var su := s + u;
    NoMatchBeforeBar(p, s, u);
    ReplaceAllKeepsUnmatched(p, su);
    assert su[1..] == s[1..] + u;
  }

  /** No match starts in a bar-free prefix whose last character is not `\s`. */
  lemma NoMatchBeforeBar(p: Pattern, s: string, u: string)
    requires s != [] && NoBar(s) && !IsRegexSpace(s[|s| - 1])
    ensures MatchAt(p, s + u).None?
  {
    var su := s + u;
    var a := RunFrom(RegexSpace, s, 0);
    if a == |s| {
      RunCovers(RegexSpace, s, 0, |s| - 1);
    }
    RunOfExtension(RegexSpace, s, u, 0);
    assert su[a] == s[a];
    MatchAtNoBar(p, su);
  }

  /** The shape of a rate label: a run of digits and dots, then `KB/s` or `MB/s`. */
  predicate IsRateLabel(l: string) {
    var d := RunFrom(DigitOrDot, l, 0);
    d > 0 && |l| == d + 4 && (l[d] == 'K' || l[d] == 'M') && l[d + 1] == 'B' && l[d + 2] == '/' && l[d + 3] == 's'
  }

  /** The shape of a risk label: one or more digits, then `%`. */
  predicate IsPercentLabel(l: string) {
    |l| >= 2 && l[|l| - 1] == '%' && forall i :: 0 <= i < |l| - 1 ==> IsDigit(l[i])
  }

  /** The labels MediaTag recognises: a platform token or a risk percentage. */
  predicate IsMediaLabel(l: string) {
    l == "GPT" || l == "GM" || l == "TW" || l == "ALL" || IsPercentLabel(l)
  }

  /** SpeedTag reads a whole rate label, and stops at the bar after it. */
  lemma RateTagLength(l: string, rest: string)
    requires IsRateLabel(l)
    requires rest == [] || rest[0] == '|'
    ensures TagLength(SpeedTag, l + rest, 0) == |l|
  {
    var s := l + rest;
    var d := RunFrom(DigitOrDot, l, 0);
    RunCovers(DigitOrDot, l, 0, 0);
    assert s[0] == l[0];
    RunOfExtension(DigitOrDot, l, rest, 0);
    forall j | 0 <= j < |l| ensures s[j] == l[j] { }
  }

  /** MediaTag reads a whole media label, and stops at the bar after it. */
  lemma MediaTagLength(l: string, rest: string)
    requires IsMediaLabel(l)
    requires rest == [] || rest[0] == '|'
    ensures TagLength(MediaTag, l + rest, 0) == |l|
  {
    var s := l + rest;
    forall j | 0 <= j < |l| ensures s[j] == l[j] { }
    if !(l == "GPT" || l == "GM" || l == "TW" || l == "ALL") {
      var digits := l[..|l| - 1];
      assert l == digits + "%";
      assert s == digits + ("%" + rest);
      RunOfWhole(Digit, digits, "%" + rest, 0);
    }
  }

  /** SpeedTag finds no rate after the bar of a media label. */
  lemma RateTagMissesMediaLabel(l: string, rest: string)
    requires IsMediaLabel(l)
    requires rest == [] || rest[0] == '|'
    ensures TagLength(SpeedTag, l + rest, 0) == 0
  {
    var s := l + rest;
    forall j | 0 <= j < |l| ensures s[j] == l[j] { }
    if IsPercentLabel(l) {
      var digits := l[..|l| - 1];
      assert l == digits + "%";
      assert s == digits + ("%" + rest);
      RunOfWhole(DigitOrDot, digits, "%" + rest, 0);
    }
  }

  /** Blanks, a bar and a rate label form exactly one SpeedTag match. */
  lemma SpeedTagMatchesRate(w: string, l: string, rest: string)
    requires AllRegexSpace(w)
    requires IsRateLabel(l)
    requires rest == [] || rest[0] == '|'
    ensures MatchAt(SpeedTag, w + "|" + l + rest) == Some(|w| + 1 + |l|)
  {
    RateTagLength(l, rest);
    MatchAtBar(SpeedTag, w, l + rest);
    assert w + "|" + l + rest == w + "|" + (l + rest);
  }

  /** Blanks, a bar and a media label form exactly one MediaTag match. */
  lemma MediaTagMatchesLabel(w: string, l: string, rest: string)
    requires AllRegexSpace(w)
    requires IsMediaLabel(l)
    requires rest == [] || rest[0] == '|'
    ensures MatchAt(MediaTag, w + "|" + l + rest) == Some(|w| + 1 + |l|)
  {
    MediaTagLength(l, rest);
    MatchAtBar(MediaTag, w, l + rest);
    assert w + "|" + l + rest == w + "|" + (l + rest);
  }

  /** A bar that starts no match is kept, and so is the bar-free word after it. */
  lemma ReplaceAllPassesBar(p: Pattern, l: string, rest: string)
    requires MatchAt(p, "|" + l + rest).None?
    requires NoBar(l) && l != [] && !IsRegexSpace(l[|l| - 1])
    ensures ReplaceAll(p, "|" + l + rest) == "|" + l + ReplaceAll(p, rest)
  {
    var s := "|" + l + rest;
    ReplaceAllKeepsUnmatched(p, s);
    assert s[1..] == l + rest;
    ReplaceAllKeepsPrefix(p, l, rest);
    assert [s[0]] == "|";
    AppendAssoc("|", l, ReplaceAll(p, rest));
  }

  /** SpeedTag never matches at a bar that introduces a media label. */
  lemma {:induction false} SpeedTagSkipsMediaLabel(l: string, rest: string)
    requires IsMediaLabel(l)
    requires rest == [] || rest[0] == '|'
    ensures ReplaceAll(SpeedTag, "|" + l + rest) == "|" + l + ReplaceAll(SpeedTag, rest)
  {
    SpeedTagMissesMediaLabel(l, rest);
    MediaLabelEndsPlain(l);
    ReplaceAllPassesBar(SpeedTag, l, rest);
  }

  lemma SpeedTagMissesMediaLabel(l: string, rest: string)
    requires IsMediaLabel(l)
    requires rest == [] || rest[0] == '|'
    ensures MatchAt(SpeedTag, "|" + l + rest).None?
  {
    RateTagMissesMediaLabel(l, rest);
    MatchAtBar(SpeedTag, [], l + rest);
    assert [] + "|" + (l + rest) == "|" + l + rest;
  }

  /** A media label has no bar and does not end in `\s`. */
  lemma MediaLabelEndsPlain(l: string)
    requires IsMediaLabel(l)
    ensures NoBar(l) && l != [] && !IsRegexSpace(l[|l| - 1])
  {
  }

  /** SpeedTag leaves a bar-separated run of media labels alone. */
  lemma {:induction false} SpeedTagKeepsMediaLabels(labels: seq<string>)
    requires forall k :: 0 <= k < |labels| ==> IsMediaLabel(labels[k])
    ensures ReplaceAll(SpeedTag, Prefixed(labels, "|")) == Prefixed(labels, "|")
    decreases |labels|
  {
    if labels != [] {
      var rest := Prefixed(labels[1..], "|");
      SpeedTagKeepsMediaLabels(labels[1..]);
      SpeedTagSkipsMediaLabel(labels[0], rest);
    }
  }

  /** MediaTag removes a bar-separated run of media labels entirely. */
  lemma {:induction false} MediaTagRemovesMediaLabels(w: string, labels: seq<string>)
    requires AllRegexSpace(w)
    requires labels != []
    requires forall k :: 0 <= k < |labels| ==> IsMediaLabel(labels[k])
    ensures ReplaceAll(MediaTag, w + Prefixed(labels, "|")) == []
    decreases |labels|
  {
    var rest := Prefixed(labels[1..], "|");
    var head := w + "|" + labels[0];
    assert ReplaceAll(MediaTag, w + Prefixed(labels, "|")) == ReplaceAll(MediaTag, rest) by {
      PrefixedHead(w, labels, "|");
      MediaTagMatchesLabel(w, labels[0], rest);
      ReplaceAllDropsPrefix(MediaTag, head, rest);
    }
    if labels[1..] != [] {
      MediaTagRemovesMediaLabels([], labels[1..]);
      assert [] + rest == rest;
    }
  }

  /** SpeedTag removes a leading rate label and its blanks and keeps the media labels after it. */
  lemma SpeedTagRemovesRateLabel(w: string, l: string, labels: seq<string>)
    requires AllRegexSpace(w)
    requires IsRateLabel(l)
    requires forall k :: 0 <= k < |labels| ==> IsMediaLabel(labels[k])
    ensures ReplaceAll(SpeedTag, w + "|" + l + Prefixed(labels, "|")) == Prefixed(labels, "|")
  {
    var rest := Prefixed(labels, "|");
    assert rest == [] || rest[0] == '|';
    SpeedTagDropsRate(w, l, rest);
    SpeedTagKeepsMediaLabels(labels);
  }

  /** Blanks, a bar and a rate label in front of a bar are dropped as one match. */
  lemma SpeedTagDropsRate(w: string, l: string, rest: string)
    requires AllRegexSpace(w)
    requires IsRateLabel(l)
    requires rest == [] || rest[0] == '|'
    ensures ReplaceAll(SpeedTag, w + "|" + l + rest) == ReplaceAll(SpeedTag, rest)
  {
    SpeedTagMatchesRate(w, l, rest);
    ReplaceAllDropsPrefix(SpeedTag, w + "|" + l, rest);
  }

  /** MediaTag empties any bar-separated run of media labels, the empty run included. */
  lemma MediaTagClearsMediaLabels(labels: seq<string>)
    requires forall k :: 0 <= k < |labels| ==> IsMediaLabel(labels[k])
    ensures ReplaceAll(MediaTag, Prefixed(labels, "|")) == []
  {
    if labels != [] {
      MediaTagRemovesMediaLabels([], labels);
      assert [] + Prefixed(labels, "|") == Prefixed(labels, "|");
    }
  }

  /** The leftmost-first reading of MediaTag: `|GPTx` loses `|GPT` and keeps the `x`. */
  lemma MediaTagIsNotAnchoredAtTagEnd()
    ensures ReplaceAll(MediaTag, "|GPTx") == "x"
  {
    MediaTagLength("GPT", []);
    MatchAtBar(MediaTag, [], "GPTx");
    assert [] + "|" + "GPTx" == "|GPTx";
    assert "|GPTx"[4..] == "x";
  }
}

=== FILE: text.dfy ===
/**
 Strings as Go's `strings` and `fmt` packages treat them, on sequences of
 Unicode scalar values: `TrimSpace`, `Join`, `Split` on a one-character
 separator, and the decimal rendering `%d` of an integer.
 */
module Text {

  /** Go's unicode.IsSpace: the characters strings.TrimSpace removes. */
  predicate IsSpace(c: char) {
    || c == '\t' || c == '\n' || c == '\U{000B}' || c == '\U{000C}' || c == '\r' || c == ' '
    || c == '\U{0085}' || c == '\U{00A0}' || c == '\U{1680}'
    || ('\U{2000}' <= c <= '\U{200A}')
    || c == '\U{2028}' || c == '\U{2029}' || c == '\U{202F}' || c == '\U{205F}' || c == '\U{3000}'
  }

  /** The RE2 class `\s`, which is `[\t\n\f\r ]` (no vertical tab, nothing beyond ASCII). */
  predicate IsRegexSpace(c: char) {
    c == '\t' || c == '\n' || c == '\U{000C}' || c == '\r' || c == ' '
  }

  predicate IsDigit(c: char) {
    '0' <= c <= '9'
  }

  predicate AllSpace(s: string) {
    forall i :: 0 <= i < |s| ==> IsSpace(s[i])
  }

  /** No character of `s` is one TrimSpace would remove. */
  predicate Spaceless(s: string) {
    forall i :: 0 <= i < |s| ==> !IsSpace(s[i])
  }

  /** `s` neither starts nor ends with white space. */
  predicate Trimmed(s: string) {
    s == [] || (!IsSpace(s[0]) && !IsSpace(s[|s| - 1]))
  }

  /** Drops the leading white space of `s`. */
  function TrimLeft(s: string): (r: string)
    ensures |r| <= |s| && r == s[|s| - |r|..]
    ensures r == [] || !IsSpace(r[0])
    decreases |s|
  {
    if s != [] && IsSpace(s[0]) then TrimLeft(s[1..]) else s
  }

  /** Drops the trailing white space of `s`. */
  function TrimRight(s: string): (r: string)
    ensures |r| <= |s| && r == s[..|r|]
    ensures r == [] || !IsSpace(r[|r| - 1])
    decreases |s|
  {
    if s != [] && IsSpace(s[|s| - 1]) then TrimRight(s[..|s| - 1]) else s
  }

  /** Go's strings.TrimSpace. */
  function TrimSpace(s: string): (r: string)
    ensures Trimmed(r)
    ensures Trimmed(s) ==> r == s
  {
    var l := TrimLeft(s);
    var r := TrimRight(l);
    assert r != [] ==> r[0] == l[0];
    r
  }

  /** Everything TrimLeft drops is white space. */
  lemma {:induction false} TrimLeftDropsSpace(s: string)
    ensures AllSpace(s[..|s| - |TrimLeft(s)|])
    decreases |s|
  {
    if s != [] && IsSpace(s[0]) {
      TrimLeftDropsSpace(s[1..]);
      var n := |s| - |TrimLeft(s)|;
      assert s[..n] == [s[0]] + s[1..][..n - 1];
    }
  }

  /** Everything TrimRight drops is white space. */
  lemma {:induction false} TrimRightDropsSpace(s: string)
    ensures AllSpace(s[|TrimRight(s)|..])
    decreases |s|
  {
    if s != [] && IsSpace(s[|s| - 1]) {
      var t := s[..|s| - 1];
      TrimRightDropsSpace(t);
      assert s[|TrimRight(s)|..] == t[|TrimRight(t)|..] + [s[|s| - 1]];
    }
  }

  /** TrimSpace gives the empty string exactly for strings of white space. */
  lemma TrimSpaceEmpty(s: string)
    ensures TrimSpace(s) == [] <==> AllSpace(s)
  {
    var l := TrimLeft(s);
    TrimLeftDropsSpace(s);
    TrimRightDropsSpace(l);
    if TrimRight(l) == [] {
      assert l[|TrimRight(l)|..] == l;
      assert s == s[..|s| - |l|] + l;
    }
  }

  /** A leading blank is one more thing TrimSpace drops. */
  lemma TrimSpaceLeadingBlank(x: string)
    ensures TrimSpace([' '] + x) == TrimSpace(x)
  {
    assert ([' '] + x)[1..] == x;
  }

  /** Putting the head back in front of the tail rebuilds the sequence, whatever follows it. */
  lemma HeadThenTail<T>(s: seq<T>, r: seq<T>)
    requires s != []
    ensures [s[0]] + (s[1..] + r) == s + r
  {
    assert [s[0]] + s[1..] == s;
  }

  /** A sequence is its head followed by exactly its tail. */
  lemma HeadThenOther<T>(s: seq<T>, x: seq<T>)
    requires s != []
    ensures [s[0]] + x == s <==> x == s[1..]
  {
    if [s[0]] + x == s {
      assert ([s[0]] + x)[1..] == x;
    }
    if x == s[1..] {
      assert [s[0]] + s[1..] == s;
    }
  }

  /** Concatenation is associative (stated for the places the solver needs it spelled out). */
  lemma AppendAssoc<T>(a: seq<T>, b: seq<T>, c: seq<T>)
    ensures a + (b + c) == a + b + c
  {
  }

  /** Go's strings.Join. */
  function Join(parts: seq<string>, sep: string): string
    decreases |parts|
  {
    if parts == [] then []
    else if |parts| == 1 then parts[0]
    else parts[0] + sep + Join(parts[1..], sep)
  }

  /** Each part preceded by `sep`, concatenated: the tail of a join. */
  function Prefixed(parts: seq<string>, sep: string): string
    decreases |parts|
  {
    if parts == [] then [] else sep + parts[0] + Prefixed(parts[1..], sep)
  }

  lemma {:induction false} JoinIsHeadThenPrefixed(parts: seq<string>, sep: string)
    requires parts != []
    ensures Join(parts, sep) == parts[0] + Prefixed(parts[1..], sep)
    decreases |parts|
  {
    if |parts| > 1 {
      JoinIsHeadThenPrefixed(parts[1..], sep);
      assert parts[1..][1..] == parts[2..];
    }
  }

  /** The prefixed form opens with the separator and the first part, whatever comes before. */
  lemma PrefixedHead(w: string, parts: seq<string>, sep: string)
    requires parts != []
    ensures w + Prefixed(parts, sep) == w + sep + parts[0] + Prefixed(parts[1..], sep)
  {
    var rest := Prefixed(parts[1..], sep);
    assert Prefixed(parts, sep) == sep + parts[0] + rest;
    AppendAssoc(w, sep + parts[0], rest);
    AppendAssoc(w, sep, parts[0]);
  }

  /** A separator in front of a join is the prefixed form, whatever comes before. */
  lemma PrefixedJoin(w: string, parts: seq<string>, sep: string)
    requires parts != []
    ensures w + sep + Join(parts, sep) == w + Prefixed(parts, sep)
  {
    JoinIsHeadThenPrefixed(parts, sep);
    assert sep + Join(parts, sep) == Prefixed(parts, sep);
    AppendAssoc(w, sep, Join(parts, sep));
  }

  /** Joining parts that have no white space with a separator that has none gives no white space. */
  lemma {:induction false} JoinSpaceless(parts: seq<string>, sep: string)
    requires forall k :: 0 <= k < |parts| ==> Spaceless(parts[k])
    requires Spaceless(sep)
    ensures Spaceless(Join(parts, sep))
    decreases |parts|
  {
    if |parts| > 1 {
      JoinSpaceless(parts[1..], sep);
      var tail := Join(parts[1..], sep);
      var r := parts[0] + sep + tail;
      forall i | 0 <= i < |r| ensures !IsSpace(r[i]) {
        if i < |parts[0]| {
          assert r[i] == parts[0][i];
        } else if i < |parts[0]| + |sep| {
          assert r[i] == sep[i - |parts[0]|];
        } else {
          assert r[i] == tail[i - |parts[0]| - |sep|];
        }
      }
    }
  }

  /** Go's strings.Split with a one-character separator: always at least one part. */
  function Split(s: string, sep: char): (parts: seq<string>)
    ensures |parts| >= 1
    decreases |s|
  {
    if s == [] then [[]]
    else
      var rest := Split(s[1..], sep);
      if s[0] == sep then [[]] + rest
      else [[s[0]] + rest[0]] + rest[1..]
  }

  /** Splitting a string without the separator gives the string back as the only part. */
  lemma {:induction false} SplitWithoutSeparator(s: string, sep: char)
    requires sep !in s
    ensures Split(s, sep) == [s]
    decreases |s|
  {
    if s != [] {
      assert s[0] in s;
      assert forall c :: c in s[1..] ==> c in s;
      SplitWithoutSeparator(s[1..], sep);
      assert [s[0]] + s[1..] == s;
    }
  }

  /** A separator-free head followed by the separator is split off as one part. */
  lemma {:induction false} SplitAfterHead(head: string, sep: char, tail: string)
    requires sep !in head
    ensures Split(head + [sep] + tail, sep) == [head] + Split(tail, sep)
    decreases |head|
  {
    var s := head + [sep] + tail;
    if head == [] {
      assert s[0] == sep && s[1..] == tail;
    } else {
      assert head[0] in head;
      assert forall c :: c in head[1..] ==> c in head;
      SplitAfterHead(head[1..], sep, tail);
      assert s[1..] == head[1..] + [sep] + tail;
      assert [head[0]] + head[1..] == head;
    }
  }

  /** Split undoes Join when no part contains the separator. */
  lemma {:induction false} SplitJoin(parts: seq<string>, sep: char)
    requires |parts| >= 1
    requires forall k :: 0 <= k < |parts| ==> sep !in parts[k]
    ensures Split(Join(parts, [sep]), sep) == parts
    decreases |parts|
  {
    if |parts| == 1 {
      SplitWithoutSeparator(parts[0], sep);
    } else {
      SplitJoin(parts[1..], sep);
      SplitAfterHead(parts[0], sep, Join(parts[1..], [sep]));
      assert [parts[0]] + parts[1..] == parts;
    }
  }

  /** Join undoes Split: splitting loses nothing. */
  lemma {:induction false} JoinSplit(s: string, sep: char)
    ensures Join(Split(s, sep), [sep]) == s
    decreases |s|
  {
    if s != [] {
      JoinSplit(s[1..], sep);
      var rest := Split(s[1..], sep);
      if s[0] == sep {
        assert Split(s, sep) == [[]] + rest;
        assert ([[]] + rest)[1..] == rest;
        assert s == [sep] + s[1..];
      } else {
        var parts := [[s[0]] + rest[0]] + rest[1..];
        assert Split(s, sep) == parts;
        if |rest| == 1 {
          assert Join(rest, [sep]) == rest[0];
          assert s == [s[0]] + s[1..];
        } else {
          assert parts[1..] == rest[1..];
          assert Join(rest, [sep]) == rest[0] + [sep] + Join(rest[1..], [sep]);
          assert s == [s[0]] + s[1..];
        }
      }
    }
  }

  function DigitChar(d: nat): (c: char)
    requires d < 10
    ensures IsDigit(c)
  {
    ('0' as int + d) as char
  }

  function DigitValue(c: char): nat
    requires IsDigit(c)
  {
    c as int - '0' as int
  }

  /** The value of a string of decimal digits. */
  function DigitsValue(s: string): nat
    requires forall i :: 0 <= i < |s| ==> IsDigit(s[i])
    decreases |s|
  {
    if s == [] then 0
    else DigitsValue(s[..|s| - 1]) * 10 + DigitValue(s[|s| - 1])
  }

  /** Go's %d of a non-negative integer: decimal digits, no leading zero. */
  function NatToString(n: nat): (s: string)
    ensures |s| >= 1
    ensures forall i :: 0 <= i < |s| ==> IsDigit(s[i])
    ensures s[0] == '0' ==> s == "0"
    ensures DigitsValue(s) == n
    decreases n
  {
    if n < 10 then [DigitChar(n)]
    else
      var s := NatToString(n / 10) + [DigitChar(n % 10)];
      assert s[..|s| - 1] == NatToString(n / 10);
      s
  }

  /** Go's %d of an integer: a minus sign before the digits of a negative one. */
  function IntToString(n: int): (s: string)
    ensures n >= 0 ==> |s| >= 1 && (forall i :: 0 <= i < |s| ==> IsDigit(s[i])) && DigitsValue(s) == n
    ensures n < 0 ==> |s| >= 2 && s[0] == '-' && (forall i :: 1 <= i < |s| ==> IsDigit(s[i])) && DigitsValue(s[1..]) == -n
  {
    if n < 0 then ['-'] + NatToString(-n) else NatToString(n)
  }
}

=== FILE: wrappers.dfy ===
/** The optional value used for the nil-or-result returns of the checker. */
module Wrappers {

  datatype Option<+T> = None | Some(value: T)
}
